=== FILE: README.md ===
# OCaml sorting visualizer: trace engine, playback and classifier

This project models the core of a browser-based sorting visualizer. The user uploads OCaml code. The application classifies it as one of five sorting algorithms. It generates an input array from the chosen size and array type, then runs a JavaScript simulator of that algorithm. The simulator records a trace: a list of steps, where each step holds a snapshot of the array, the indices to highlight and running counters. The user plays the trace back, steps through it, or jumps to a step. A renderer decides the colour of every bar from the highlights of the displayed step.

The model has these modules:

- `Trace` (with `Wrappers`): the step record, its highlight fields and counters, and the facts every simulator shares. These are ascending order, permutation of the input, and counters that never decrease along the trace.
- `BubbleSort`, `SelectionSort`, `InsertionSort`, `QuickSort`, `MergeSort`: the five simulators. Each is a method on a value copy of the array that appends steps to a sequence. Each inner loop is a method of its own.
- `Generator`: `generateArray` for the four array types. Each `Math.random()` call is a draw, a fraction num/den in [0, 1), supplied by a caller-given function.
- `Engine`: the dispatch of `generateSortingSteps` on the algorithm id.
- `Playback`: the application's playback state and its transitions `play`, `pause`, `stepBack`, `stepForward`, `reset` and one tick of `animate`.
- `Debugger`: `step` and `goToStep`.
- `Controls`: the state effects of the size, speed and array-type controls.
- `Classifier`: `parse`, `detectAlgorithmType` and its pattern tests, and `analyzeComplexity`.
- `Animation`: `drawStep`, `isInRange` and the colour chain of `drawArray`.

The model follows the code, including these behaviours a reader may not expect:

- Quicksort on a one-element array emits three steps: the initial step, a `sorted: [0]` step and the final step.
- The first insertion-sort step already marks index 0 as sorted.
- `goToStep` ignores an out-of-range step number rather than clamping it.
- `generateSortingSteps` leaves the playing flag as it was.
- `play` advances one step at once, because it calls `animate` directly.
- The size and type controls drop the trace but do not switch playback off. The next pending tick does that.

## Model

| member | source | states |
|---|---|---|
| Trace.ChainMeans | app.js:266-714 | The step-by-step trace invariant implies the trace-wide one: every counter is at most the same counter of every later step, and every checkpoint snapshot (every snapshot, for bubble, selection and quick sort) is a permutation of the input |
| BubbleSort.Visit | app.js:278-300 | One comparison of cells j and j+1, shown with both cells marked as compared: the two cells are exchanged exactly when a[j] > a[j+1] and nothing else changes, so the maximum of the prefix moves to j+1; comparisons rise by one and swaps by one exactly when they were exchanged; the settled cells at the end stay put and the array stays a permutation |
| BubbleSort.Pass | app.js:278-301 | One pass of the inner loop makes n-i-1 comparisons and carries the largest unsettled element to position n-i-1, so the suffix from there is settled |
| BubbleSort.Round | app.js:277-309 | A pass followed by the step that marks the i+1 highest indices n-1, n-2, ..., n-1-i as sorted, showing the array after the pass |
| BubbleSort.Rounds | app.js:271-310 | After all n-1 passes the array is a permutation of the input whose cells are all settled, and n(n-1)/2 comparisons have been counted |
| BubbleSort.Simulate | app.js:266-320 | The trace opens with the input and zero counters and ends with the ascending permutation of the input with every index marked sorted; it makes n(n-1)/2 comparisons, its counters never decrease, every step satisfies accesses = 2*comparisons + 4*swaps, and every snapshot is a permutation of the input |
| SelectionSort.Scan | app.js:577-608 | The scan of cells i+1..n-1 returns the index of the leftmost minimum of the unsorted part, after n-i-1 comparisons and no swap |
| SelectionSort.Round | app.js:577-629 | Round i finds the leftmost minimum of a[i..] and exchanges it into position i, leaving every other cell untouched, counting one swap exactly when it was elsewhere (never in the last round); the i+1 smallest elements are then ascending at the front, and the round ends with a step marking indices 0..i sorted |
| SelectionSort.Simulate | app.js:566-639 | The trace opens with the input and zero counters and ends with the ascending permutation of the input with every index marked sorted; exactly n(n-1)/2 comparisons and at most n-1 swaps; counters never decrease and every snapshot is a permutation of the input |
| InsertionSort.InversionsZeroIffAscending | app.js:642-714 | An array has no inversions exactly when it is ascending, which ties the insertion-sort shift count to sortedness |
| InsertionSort.Visit | app.js:667-693 | One turn of the shift loop: either the cell left of the hole is not above the key and the loop stops, or it moves one place right; one comparison and, when it moves, one shift |
| InsertionSort.Shift | app.js:654-696 | Inserting cell i into the sorted prefix leaves the first i+1 cells ascending and a permutation of what they were, leaves later cells alone, and counts exactly as many shifts as prefix elements above the key, with one comparison more than shifts at most |
| InsertionSort.Round | app.js:654-704 | A shift followed by the step that marks indices 0..i sorted and shows the array after the insertion |
| InsertionSort.Advance | app.js:654-704 | After rounds 1..i the shift counter equals the number of inversions among the first i+1 input cells, and those cells are the ones now at the front |
| InsertionSort.Simulate | app.js:642-714 | The trace opens with the input marked sorted at index 0 and ends with the ascending permutation of the input with every index marked sorted; the swap counter is the number of inversions of the input, comparisons lie between swaps and swaps + n-1, counters never decrease, and every checkpoint is a permutation of the input |
| QuickSort.Visit | app.js:383-407 | A comparison step with the pivot is recorded first. When a[j] <= pivot the left part grows by one (i becomes i+1), and cells i+1 and j are exchanged and one swap counted exactly when they differ; otherwise the array and i are unchanged. The Lomuto invariant is kept: cells low..i are at most the pivot and cells i+1..j are above it |
| QuickSort.Loop | app.js:376-408 | The comparison loop makes high-low comparisons and leaves the range split into a part at most the pivot and a part above it, with the pivot still at high |
| QuickSort.Partition | app.js:372-422 | Partition returns pi in [low, high] holding the old pivot value, with everything left of it at most the pivot and everything right of it above; only low..high changes, the array stays a permutation, and it counts high-low comparisons and at least one swap |
| QuickSort.Sort | app.js:334-370 | quicksort(low, high) sorts the range low..high, changes nothing outside it and permutes it; an empty range emits nothing and a one-cell range emits exactly one step |
| QuickSort.Joined | app.js:343-361 | Sorted sides around a correctly placed pivot make the whole range sorted |
| QuickSort.Simulate | app.js:323-434 | The trace opens with the input and zero counters and ends with the ascending permutation of the input with every index marked sorted; a one-element array gives exactly three steps; counters never decrease and every snapshot is a permutation of the input |
| MergeSort.MergeSeqPerm | app.js:470-541 | Merging two lists yields a list as long as both together, holding exactly their elements |
| MergeSort.MergeSeqSorted | app.js:485-541 | Merging two ascending lists yields an ascending list |
| MergeSort.Interleave | app.js:485-513 | The two-list loop takes the smaller head each time, the left one on ties, until one list runs out, counting at most r-l comparisons and emitting merging steps that place consecutive indices |
| MergeSort.Drain | app.js:515-541 | The copy loops place the rest of the unfinished list at the following indices, with the counters unchanged |
| MergeSort.Combine | app.js:485-541 | Both loops together place indices l..r in order and write the merged halves into l..r |
| MergeSort.Merge | app.js:470-550 | merge(l, m, r) writes the ordered merge of the two halves into l..r and nothing else; its first step announces the range, every step before the last carries the merge range, the placed indices are l, l+1, ..., r in that order, the last step marks [l, r] merged, and it counts at most r-l comparisons and exactly one merge |
| MergeSort.SortRange | app.js:448-468 | mergeSort(l, r) sorts l..r, changes nothing outside it, permutes the array, and counts exactly r-l merges for a non-empty range |
| MergeSort.Simulate | app.js:437-563 | The trace opens with the input and zero counters and ends with the ascending permutation of the input with every index marked sorted; n-1 merges for n > 0; counters never decrease and every checkpoint is a permutation of the input |
| Generator.Pick | app.js:723 | floor(random * k) is an index below k for every positive k |
| Generator.RandomCells | app.js:723 | A random array cell t is floor(random * 3size) + 1, so it lies in 1..3size |
| Generator.ReverseCells | app.js:726 | Cell t of the reverse array is size - t |
| Generator.DuplicateCells | app.js:738-742 | A duplicates cell is one of the values 5, 10, ..., 5u picked at random, so a multiple of 5 in 5..5u |
| Generator.Shuffle | app.js:731-735 | The random exchanges keep the length and the elements of the array |
| Generator.NearlySorted | app.js:728-736 | The nearly-sorted array is a permutation of 1..size, and empty for size 0 |
| Generator.NearlySortedAsWritten | app.js:728-736 | For every positive size the nearly-sorted case as written agrees with the corrected one |
| Generator.NearlySortedEmptyDiffers | app.js:731-734 | For size 0 the exchange loop still runs once, with both indices 0, so the case as written does not give the empty array |
| Generator.GenerateArray | app.js:717-748 | With the corrected nearly-sorted case, each known array type gives size cells within its range (random 1..3size, reverse size-t at t, nearly-sorted a permutation of 1..size, duplicates multiples of 5 up to 5*max(3, size/4)); any other type gives the empty array |
| Generator.NearlySortedIsPermutation | app.js:728-736 | Every nearly-sorted cell lies in 1..size and each of 1..size occurs exactly once |
| Engine.AlgorithmOf | app.js:234-252 | An algorithm id selects the simulator with that id, and every other string selects bubble sort |
| Engine.Dispatch | app.js:234-252 | Whatever the chosen simulator, the trace starts with that simulator's first step on the input and ends sorted, as a permutation, with every index marked; counters never decrease |
| Engine.GenerateSortingSteps | app.js:228-254 | The new trace sorts the freshly generated array and is shown from step 0; the playing flag and the generator settings are unchanged |
| Playback.InitialIsIdle | app.js:6-14 | The constructed state has no trace, shows step 0, is not playing, and has speed 5, size 15, random data and bubble sort; play, both step buttons and reset leave it unchanged |
| Playback.TickDelay | app.js:822 | The delay is max(50, 1100 - 100*speed): at least 50 ms, 50 ms from speed 11 up |
| Playback.TickDelayMonotone | app.js:822 | A faster speed setting never waits longer |
| Playback.Animate | app.js:812-824 | A tick reschedules itself exactly when playing and not at the last step, moving one step forward; otherwise it switches playback off and stays put; the display index stays within the trace |
| Playback.Play | app.js:773-782 | Without a trace nothing changes; otherwise playback goes on and the display advances at once, or playback stops when it is already at the last step |
| Playback.Pause | app.js:784-787 | Only playback is switched off; the trace, position and every setting are kept, and the next pending tick neither moves nor reschedules |
| Playback.StepBack | app.js:789-794 | One step earlier, or nothing at step 0 |
| Playback.StepForward | app.js:796-801 | One step later, or nothing at the last step |
| Playback.ForwardBackInverse | app.js:789-801 | Inside the trace a step forward is undone by a step back, and the other way round |
| Playback.Reset | app.js:803-810 | Back to step 0 with playback off; the trace and the settings are kept |
| Playback.Run | app.js:812-824 | Following the chain of ticks moves the display by exactly the number of ticks that rescheduled, and never changes the trace |
| Playback.PlaybackFinishes | app.js:773-824 | Once playing, the ticks show every remaining step exactly once and stop at the last step with playback off |
| Debugger.StepIn | step-debugger.js:10-16 | "forward" is stepForward, "backward" is stepBack, any other direction changes nothing; the display index stays within the trace |
| Debugger.GoToStep | step-debugger.js:18-23 | A step number of the trace becomes the displayed step, and any other number leaves the state unchanged |
| Debugger.GoToStepIdempotent | step-debugger.js:18-23 | Jumping twice to the same step is the same as jumping once |
| Debugger.GoToThenStep | step-debugger.js:10-23 | After a jump to an inner step, a step back and a step forward (in either order) return to it |
| Controls.SizeInput | controls.js:22-39 | The new size is stored and the trace is dropped with the display at step 0; playback, speed, type and algorithm are unchanged |
| Controls.SpeedInput | controls.js:55-61 | Only the speed changes |
| Controls.TypeChange | controls.js:69-82 | The new type is stored and the trace is dropped with the display at step 0; playback, speed, size and algorithm are unchanged |
| Controls.InvalidationStopsPlayback | controls.js:26-34 | After either control drops the trace, the next tick switches playback off without moving |
| Controls.SpeedKeepsPlayback | controls.js:55-61 | A speed change does not alter whether the next tick advances or where to, only its delay |
| Classifier.ToLower | ocaml-compiler.js:34 | Lower-casing keeps the length and lower-cases every character in place |
| Classifier.ContainsIff | ocaml-compiler.js:36-86 | The substring test holds exactly when the pattern occurs at some position of the text |
| Classifier.LowerKeepsPattern | ocaml-compiler.js:34-44 | A lower-case pattern present in the text is also present in the lower-cased text |
| Classifier.DetectByPatterns | ocaml-compiler.js:79-86 | A `for` gives bubble sort, otherwise a `rec` gives quick sort, otherwise unknown |
| Classifier.DetectAlgorithmType | ocaml-compiler.js:33-57 | The five tests are tried in the order bubble, quick, merge, selection, insertion and the first that passes gives its id; when none passes the fallback patterns decide; merge, selection and insertion sort come only from their own test passing first; a text naming bubble in any letter case is bubble sort |
| Classifier.UnknownIff | ocaml-compiler.js:33-86 | A text is unclassified exactly when it names no algorithm in any letter case, contains neither `for` nor `rec`, and does not contain both `key` and `while` |
| Classifier.KeywordsIgnoreCase | ocaml-compiler.js:34-54 | Two texts equal up to letter case make the same keyword decisions |
| Classifier.ShortTextMisses | ocaml-compiler.js:36-86 | A text shorter than the pattern never contains it |
| Classifier.ThreeLetters | ocaml-compiler.js:59-86 | A three-letter text contains a three-letter pattern only by being it |
| Classifier.UpperCaseKeyword | ocaml-compiler.js:34-38 | "BUBBLE" is classified as bubble sort |
| Classifier.CaseSensitivePatterns | ocaml-compiler.js:59-86 | "for" is classified as bubble sort while "FOR" is unknown: the code-shape tests are case-sensitive |
| Classifier.UpperForIsUnknown | ocaml-compiler.js:59-86 | "FOR" contains no algorithm keyword and, being upper-case, matches none of the code shapes, so it is unknown |
| Classifier.EmptyIsUnknown | ocaml-compiler.js:33-86 | The empty text is unknown |
| Classifier.AnalyzeComplexity | ocaml-compiler.js:88-99 | The three quadratic sorts get O(n²)/O(1), quick sort O(n log n)/O(log n), merge sort O(n log n)/O(n), and every other id the unknown entry |
| Classifier.Parse | ocaml-compiler.js:6-17 | Parsing always succeeds without errors, reports the detected id, reports exactly that id's complexity entry, and reports an unknown time complexity exactly when the id is unknown |
| Animation.DrawStep | animation.js:204-222 | No step draws nothing; a step draws its own array with every highlight field carried over, `dividing` arriving as `divided` |
| Animation.IsInRange | animation.js:150-159 | A pair [a, b] covers a..b, a triple [l, m, r] covers l..r, and anything else covers nothing |
| Animation.MergeRangeIsSpan | animation.js:150-159 | A merge triple covers the same indices as the pair [l, r], exactly the indices the merge places |
| Animation.PaintFollowsPriority | animation.js:78-108 | The first applicable branch of the chain decides the colour and the border, a merged range is painted as sorted, and with no applicable branch the bar is normal without a border |
| Animation.SomeRuleWins | animation.js:78-108 | Whenever some branch applies, a deciding branch exists and it comes no later |
| Animation.BorderExactly | animation.js:78-108 | A bar has a border exactly when a comparing, swapping, pivot, current, minimum or placed branch decides |
| Animation.ComparedPivot | animation.js:82-92 | In a quicksort comparison step the pivot bar is painted as compared, with a border, not as the pivot |
| Animation.PlacedInsideMerge | animation.js:99-105 | A merge placement step paints the placed bar in the merging colour without a border, since the merge range wins over the placed branch |
| Animation.MergedLooksSorted | animation.js:106-107 | Every bar of a merged range is painted sorted without a border |
| Animation.FinalStepAllSorted | animation.js:88-89 | The final step of every simulator paints every bar sorted without a border |

## Left out

- Canvas geometry, bar sizes, labels, value text, the hex strings of the palette and the legend (`drawLegend`) are drawing only. The model keeps the colour and border decision.
- The size slider's `change` event (controls.js:42-44) only redraws the preview array and changes no state, so it has no member.
- The `description` strings of the steps, the algorithm explanations and every DOM, `alert` and `console` call are text output only.
- `setTimeout` is not modelled as a clock. One `animate` call is a transition that reports the delay it would schedule, and `Playback.Run` follows the chain. Several chains running at once (for example after `play` is pressed twice) are not modelled.
- `Math.random()` is a draw num/den with num < den supplied by the caller, not a floating-point number. `Math.floor(Math.random() * k)` is num*k/den.
- The preview redraw of `generateInitialVisualization` is left out. It generates an array only to draw it and changes no state.
- `parseInt` of the slider values is assumed to give a number. Size is a `nat`, so NaN and negative sizes are not modelled. Speed is any integer.
- Lower-casing covers ASCII letters only. JavaScript's full Unicode `toLowerCase` is not modelled.
- The `analyzeComplexity` lookup on a property inherited from the object prototype (an id such as "constructor") is not modelled. Every id outside the table gets the unknown entry.
- `parse` is `async` and has a `catch` branch. Its result is modelled as a plain value, and the branch is left out because classification never throws.
- `hasSelectionSortPattern` and `detectByPatterns` test `for` twice. The model tests it once, which is the same condition.
- file-manager.js, the example programs, the code editor and the compile button wiring are not part of this model.
- Generator.GenerateArray and Engine.GenerateSortingSteps: they use the corrected nearly-sorted case, so at size 0 they give the empty array and a trace of it. The code as written gives a one-cell array holding `undefined` (app.js:729-735), and the simulators then run on that one cell. Generator.NearlySortedAsWritten records the behaviour as written (see Findings).
- QuickSort.Simulate: no exact comparison count is stated, since it depends on the pivots chosen. Sort, Partition and Loop state the per-partition count of high-low comparisons.
- InsertionSort.Simulate and MergeSort.Simulate: the permutation is promised for every checkpoint step (a step with no comparing, swapping, merging or placed highlight), not for every snapshot. The intermediate snapshots of the shift and merge loops hold a duplicated cell by design.
- Engine.Dispatch and Engine.GenerateSortingSteps: the counters' exact values are stated per simulator, not through the dispatch.

## Findings

| source | as written | input that shows it | evidently intended | confidence | as-written member | corrected member |
|---|---|---|---|---|---|---|
| app.js:728-736 | The nearly-sorted case runs the exchange loop max(1, floor(size/10)) times even when size is 0. It then exchanges `array[0]` with itself, which writes `undefined` into cell 0 of the empty array. | array size 0 with the nearly-sorted type | the empty array, as the other three types give | low (the size slider may never reach 0); not executed | Generator.NearlySortedAsWritten | Generator.NearlySorted |

=== FILE: animation.dfy ===
/**
 * The colour decision of the bar renderer: which colour, and whether a
 * border, each index of the drawn array gets from the highlights of the
 * displayed step. Geometry, labels and the legend are not modelled.
 */
module Animation {
  import opened Wrappers
  import opened Trace
  import MergeSort

  datatype Colour = Normal | Comparing | Swapping | Sorted | Pivot | Current | Minimum | Merging | Divided | Placed

  /**
   * The highlights object the renderer receives: the step's fields under the
   * same names, except that the step's `dividing` range arrives as `divided`.
   */
  datatype Overlay = Overlay(
    comparing: Option<seq<int>>,
    swapping: Option<seq<int>>,
    sorted: Option<seq<int>>,
    pivot: Option<int>,
    current: Option<int>,
    minimum: Option<int>,
    merging: Option<seq<int>>,
    divided: Option<seq<int>>,
    placed: Option<int>,
    merged: Option<seq<int>>)

  /** What the renderer draws: the array and its highlights. */
  datatype Frame = Frame(values: seq<int>, overlay: Overlay)

  /**
   * `drawStep`: no step draws nothing; a step draws its array with every
   * present field copied, `dividing` renamed to `divided`.
   */
  function DrawStep(step: Option<Step>): (f: Option<Frame>)
    ensures step.None? <==> f.None?
    ensures step.Some? ==> f.value.values == step.value.values
    ensures step.Some? ==> var h, o := step.value.highlights, f.value.overlay;
      o.comparing == h.comparing && o.swapping == h.swapping && o.sorted == h.sorted
      && o.pivot == h.pivot && o.current == h.current && o.minimum == h.minimum
      && o.merging == h.merging && o.divided == h.dividing && o.placed == h.placed && o.merged == h.merged
  {
    match step
    case None => None
    case Some(s) =>
      var h := s.highlights;
      Some(Frame(s.values, Overlay(h.comparing, h.swapping, h.sorted, h.pivot, h.current, h.minimum,
                                   h.merging, h.dividing, h.placed, h.merged)))
  }

  /**
   * `isInRange`: a two-entry range [a, b] covers a..b, a three-entry range
   * [l, m, r] covers l..r whatever m is, and an absent, shorter or longer
   * range covers nothing.
   */
  function IsInRange(index: int, range: Option<seq<int>>): (b: bool)
    ensures range.None? || |range.value| < 2 || |range.value| > 3 ==> !b
    ensures range.Some? && |range.value| == 2 ==> (b <==> range.value[0] <= index <= range.value[1])
    ensures range.Some? && |range.value| == 3 ==> (b <==> range.value[0] <= index <= range.value[2])
  {
    match range
    case None => false
    case Some(v) =>
      if |v| < 2 then false
      else if |v| == 2 then v[0] <= index && index <= v[1]
      else if |v| == 3 then v[0] <= index && index <= v[2]
      else false
  }

  /** A merge range [l, m, r] covers exactly the indices l..r that the merge places, in the same way as [l, r]. */
  lemma MergeRangeIsSpan(index: int, l: int, m: int, r: int)
    ensures IsInRange(index, Some([l, m, r])) == IsInRange(index, Some([l, r]))
    ensures IsInRange(index, Some([l, m, r])) <==> index in MergeSort.Span(l, r + 1)
  {
    MergeSort.SpanAt(l, r + 1);
    if l <= index <= r {
      assert MergeSort.Span(l, r + 1)[index - l] == index;
    }
  }

  /** The branches of the renderer's colour chain, in the order it tries them. */
  datatype Rule = ComparingRule | SwappingRule | SortedRule | PivotRule | CurrentRule
                | MinimumRule | MergingRule | DividedRule | PlacedRule | MergedRule

  function Rank(r: Rule): nat {
    match r
    case ComparingRule => 0
    case SwappingRule => 1
    case SortedRule => 2
    case PivotRule => 3
    case CurrentRule => 4
    case MinimumRule => 5
    case MergingRule => 6
    case DividedRule => 7
    case PlacedRule => 8
    case MergedRule => 9
  }

  /** Whether a branch's condition holds for the index. */
  predicate Applies(h: Overlay, index: int, r: Rule) {
    match r
    case ComparingRule => h.comparing.Some? && index in h.comparing.value
    case SwappingRule => h.swapping.Some? && index in h.swapping.value
    case SortedRule => h.sorted.Some? && index in h.sorted.value
    case PivotRule => h.pivot == Some(index)
    case CurrentRule => h.current == Some(index)
    case MinimumRule => h.minimum == Some(index)
    case MergingRule => IsInRange(index, h.merging)
    case DividedRule => IsInRange(index, h.divided)
    case PlacedRule => h.placed == Some(index)
    case MergedRule => IsInRange(index, h.merged)
  }

  /** The colour a branch paints: its own, except that a merged range is painted as sorted. */
  function ColourOf(r: Rule): Colour {
    match r
    case ComparingRule => Comparing
    case SwappingRule => Swapping
    case SortedRule => Sorted
    case PivotRule => Pivot
    case CurrentRule => Current
    case MinimumRule => Minimum
    case MergingRule => Merging
    case DividedRule => Divided
    case PlacedRule => Placed
    case MergedRule => Sorted
  }

  /** The branches that also draw a border around the bar. */
  predicate Bordered(r: Rule) {
    r in {ComparingRule, SwappingRule, PivotRule, CurrentRule, MinimumRule, PlacedRule}
  }

  /** The colour and border of one bar. */
  datatype Paint = Paint(colour: Colour, border: bool)

  /** The branch that decides: it applies, and no earlier branch does. */
  predicate Wins(h: Overlay, index: int, r: Rule) {
    Applies(h, index, r) && forall q :: Rank(q) < Rank(r) ==> !Applies(h, index, q)
  }

  /**
   * The colour chain of `drawArray` for one index: the first branch whose
   * condition holds paints the bar, with a border for the comparing,
   * swapping, pivot, current, minimum and placed branches; when none holds
   * the bar is normal and unbordered.
   */
  function PaintOf(h: Overlay, index: int): Paint {
    if h.comparing.Some? && index in h.comparing.value then Paint(Comparing, true)
    else if h.swapping.Some? && index in h.swapping.value then Paint(Swapping, true)
    else if h.sorted.Some? && index in h.sorted.value then Paint(Sorted, false)
    else if h.pivot == Some(index) then Paint(Pivot, true)
    else if h.current == Some(index) then Paint(Current, true)
    else if h.minimum == Some(index) then Paint(Minimum, true)
    else if IsInRange(index, h.merging) then Paint(Merging, false)
    else if IsInRange(index, h.divided) then Paint(Divided, false)
    else if h.placed == Some(index) then Paint(Placed, true)
    else if IsInRange(index, h.merged) then Paint(Sorted, false)
    else Paint(Normal, false)
  }

  /**
   * The chain paints by priority: the branch that decides gives the colour
   * and the border, and with no applicable branch the bar is normal.
   */
  lemma PaintFollowsPriority(h: Overlay, index: int)
    ensures forall r :: Wins(h, index, r) ==> PaintOf(h, index) == Paint(ColourOf(r), Bordered(r))
    ensures (forall r :: !Applies(h, index, r)) ==> PaintOf(h, index) == Paint(Normal, false)
  {
    forall r | Wins(h, index, r)
      ensures PaintOf(h, index) == Paint(ColourOf(r), Bordered(r))
    {
      assert Rank(r) > 0 ==> !Applies(h, index, ComparingRule);
      assert Rank(r) > 1 ==> !Applies(h, index, SwappingRule);
      assert Rank(r) > 2 ==> !Applies(h, index, SortedRule);
      assert Rank(r) > 3 ==> !Applies(h, index, PivotRule);
      assert Rank(r) > 4 ==> !Applies(h, index, CurrentRule);
      assert Rank(r) > 5 ==> !Applies(h, index, MinimumRule);
      assert Rank(r) > 6 ==> !Applies(h, index, MergingRule);
      assert Rank(r) > 7 ==> !Applies(h, index, DividedRule);
      assert Rank(r) > 8 ==> !Applies(h, index, PlacedRule);
    }
    if forall r :: !Applies(h, index, r) {
      assert !Applies(h, index, ComparingRule) && !Applies(h, index, SwappingRule);
      assert !Applies(h, index, SortedRule) && !Applies(h, index, PivotRule);
      assert !Applies(h, index, CurrentRule) && !Applies(h, index, MinimumRule);
      assert !Applies(h, index, MergingRule) && !Applies(h, index, DividedRule);
      assert !Applies(h, index, PlacedRule) && !Applies(h, index, MergedRule);
    }
  }

  /** Some branch decides whenever any applies: the earliest applicable one. */
  lemma {:induction false} SomeRuleWins(h: Overlay, index: int, r: Rule)
    requires Applies(h, index, r)
    ensures exists w :: Wins(h, index, w) && Rank(w) <= Rank(r)
    decreases Rank(r)
  {
    if !Wins(h, index, r) {
      var q :| Rank(q) < Rank(r) && Applies(h, index, q);
      SomeRuleWins(h, index, q);
    }
  }

  /** A border is drawn exactly when a bordered branch decides. */
  lemma BorderExactly(h: Overlay, index: int)
    ensures PaintOf(h, index).border <==> exists r :: Wins(h, index, r) && Bordered(r)
  {
    PaintFollowsPriority(h, index);
    if exists r :: Applies(h, index, r) {
      var r :| Applies(h, index, r);
      SomeRuleWins(h, index, r);
    }
  }

  /** A quicksort comparison step paints the pivot as compared, not as the pivot. */
  lemma ComparedPivot(values: seq<int>, j: int, high: int, m: Metrics)
    ensures DrawStep(Some(Step(values, Plain.(comparing := Some([j, high]), pivot := Some(high)), m))).value.overlay.pivot == Some(high)
    ensures PaintOf(DrawStep(Some(Step(values, Plain.(comparing := Some([j, high]), pivot := Some(high)), m))).value.overlay, high) == Paint(Comparing, true)
  {
  }

  /**
   * A merge-sort placement step marks the placed index inside the merge
   * range, so it is painted with the merging colour and no border: the
   * placed branch is never reached for these steps.
   */
  lemma PlacedInsideMerge(values: seq<int>, l: int, m: int, r: int, k: int, c: Metrics)
    requires l <= k <= r
    ensures PaintOf(DrawStep(Some(Step(values, Plain.(merging := Some([l, m, r]), placed := Some(k)), c))).value.overlay, k) == Paint(Merging, false)
  {
  }

  /** A merged range is painted in the sorted colour, without a border. */
  lemma MergedLooksSorted(values: seq<int>, l: int, r: int, k: int, c: Metrics)
    requires l <= k <= r
    ensures PaintOf(DrawStep(Some(Step(values, Plain.(merged := Some([l, r])), c))).value.overlay, k) == Paint(Sorted, false)
  {
  }

  /** The last step of every simulator paints each bar of the array sorted. */
  lemma FinalStepAllSorted(values: seq<int>, c: Metrics, index: int)
    requires 0 <= index < |values|
    ensures PaintOf(DrawStep(Some(Step(values, Plain.(sorted := Some(Indices(|values|))), c))).value.overlay, index) == Paint(Sorted, false)
  {
    IndicesAt(|values|);
    assert Indices(|values|)[index] == index;
  }
}

=== FILE: bubble.dfy ===
/**
 * The bubble-sort simulator: the classic double loop with no early exit.
 * Every comparison reads two cells and every exchange touches four, so the
 * access counter is always 2*comparisons + 4*swaps.
 */
module BubbleSort {
  import opened Wrappers
  import opened Trace

  /**
   * Every snapshot carries bubble-sort counters with accesses = 2*comparisons + 4*swaps.
   * (The arithmetic is written inside the quantifier on purpose: a separate predicate on
   * one Metrics value makes the solver loop on the literal initial counters.)
   */
  predicate AllBalanced(steps: seq<Step>) {
    forall k :: 0 <= k < |steps| ==>
      steps[k].metrics.BubbleCounts? &&
      steps[k].metrics.accesses == 2 * steps[k].metrics.comparisons + 4 * steps[k].metrics.swaps
  }

  /** The trace facts kept at every point of the simulation. */
  predicate Good(steps: seq<Step>, m: multiset<int>) {
    Chain(steps, m, true) && AllBalanced(steps)
  }

  lemma Push(steps: seq<Step>, s: Step, m: multiset<int>)
    requires Good(steps, m) && MetricsLe(Last(steps).metrics, s.metrics)
    requires s.metrics.BubbleCounts? && s.metrics.accesses == 2 * s.metrics.comparisons + 4 * s.metrics.swaps
    requires multiset(s.values) == m
    ensures Good(steps + [s], m) && Last(steps + [s]) == s
  {
    Extend(steps, s, m, true);
    assert AllBalanced(steps + [s]) by {
      forall k | 0 <= k < |steps + [s]|
        ensures (steps + [s])[k].metrics.BubbleCounts?
        ensures (steps + [s])[k].metrics.accesses == 2 * (steps + [s])[k].metrics.comparisons + 4 * (steps + [s])[k].metrics.swaps
      {
        if k < |steps| {
          assert (steps + [s])[k] == steps[k];
        }
      }
    }
  }

  /**
   * Every cell at or after `from` is at least every cell before it, so the
   * suffix from `from` is sorted and in its final place.
   */
  predicate SettledFrom(a: seq<int>, from: int) {
    forall p, q :: 0 <= p < q < |a| && from <= q ==> a[p] <= a[q]
  }

  /** The `sorted` list after pass i: the last i+1 positions, rightmost first. */
  function SettledIndices(n: int, i: nat): (r: seq<int>)
    ensures |r| == i + 1
  {
    if i == 0 then [n - 1] else SettledIndices(n, i - 1) + [n - 1 - i]
  }

  lemma {:induction false} SettledIndicesAt(n: int, i: nat)
    ensures forall k :: 0 <= k <= i ==> SettledIndices(n, i)[k] == n - 1 - k
  {
    if i > 0 {
      SettledIndicesAt(n, i - 1);
    }
  }

  /**
   * One iteration of the inner loop at position j: the comparing step, and
   * when a[j] > a[j+1] the exchange and its swapping step. Afterwards a[j+1]
   * is the largest of a[0..j+1].
   */
  method Visit(a: seq<int>, j: nat, from: int, steps: seq<Step>) returns (a': seq<int>, steps': seq<Step>)
    requires j + 1 < from <= |a| && SettledFrom(a, from)
    requires forall p :: 0 <= p < j ==> a[p] <= a[j]
    requires Good(steps, multiset(a))
    ensures |a'| == |a| && multiset(a') == multiset(a) && SettledFrom(a', from)
    ensures forall p :: 0 <= p < j + 1 ==> a'[p] <= a'[j + 1]
    ensures |steps'| > |steps| && steps'[..|steps|] == steps && Good(steps', multiset(a))
    ensures a' == (if a[j] > a[j + 1] then Swap(a, j, j + 1) else a)
    ensures Last(steps').metrics.comparisons == Last(steps).metrics.comparisons + 1
    ensures Last(steps').metrics.swaps == Last(steps).metrics.swaps + (if a[j] > a[j + 1] then 1 else 0)
    ensures steps'[|steps|].highlights == Plain.(comparing := Some([j, j + 1])) && steps'[|steps|].values == a
    ensures Last(steps').values == a'
  {
    var m := Last(steps).metrics;
    var compare := Step(a, Plain.(comparing := Some([j, j + 1])),
                        BubbleCounts(m.comparisons + 1, m.swaps, m.accesses + 2));
    Push(steps, compare, multiset(a));
    steps' := steps + [compare];
    a' := a;
    if a[j] > a[j + 1] {
      SwapFacts(a, j, j + 1);
      a' := Swap(a, j, j + 1);
      var exchange := Step(a', Plain.(swapping := Some([j, j + 1])),
                           BubbleCounts(m.comparisons + 1, m.swaps + 1, m.accesses + 6));
      Push(steps', exchange, multiset(a));
      PushPrefix(steps', exchange, steps);
      steps' := steps' + [exchange];
    }
  }

  /**
   * One pass of the inner loop, j from 0 to n-i-2: afterwards the largest
   * unsettled element has reached position n-i-1.
   */
  method Pass(a: seq<int>, i: nat, steps: seq<Step>) returns (a': seq<int>, steps': seq<Step>)
    requires i + 1 < |a| && SettledFrom(a, |a| - i)
    requires Good(steps, multiset(a))
    ensures |a'| == |a| && multiset(a') == multiset(a) && SettledFrom(a', |a| - i - 1)
    ensures |steps'| > |steps| && steps'[..|steps|] == steps && Good(steps', multiset(a))
    ensures Last(steps').metrics.comparisons == Last(steps).metrics.comparisons + (|a| - i - 1)
  {
    var n := |a|;
    a', steps' := a, steps;
    var j := 0;
    while j < n - i - 1
      invariant 0 <= j <= n - i - 1
      invariant |a'| == n && multiset(a') == multiset(a) && SettledFrom(a', n - i)
      invariant forall p :: 0 <= p < j ==> a'[p] <= a'[j]
      invariant |steps| <= |steps'| && steps'[..|steps|] == steps && Good(steps', multiset(a))
      invariant Last(steps').metrics.comparisons == Last(steps).metrics.comparisons + j
    {
      var before := steps';
      a', steps' := Visit(a', j, n - i, steps');
      assert steps'[..|steps|] == before[..|steps|];
      j := j + 1;
    }
  }

  /** One round of the outer loop: a pass, then the step marking the settled suffix. */
  method Round(a: seq<int>, i: nat, steps: seq<Step>) returns (a': seq<int>, steps': seq<Step>)
    requires i + 1 < |a| && SettledFrom(a, |a| - i)
    requires Good(steps, multiset(a))
    ensures |a'| == |a| && multiset(a') == multiset(a) && SettledFrom(a', |a| - i - 1)
    ensures |steps'| > |steps| && steps'[0] == steps[0] && Good(steps', multiset(a))
    ensures Last(steps').metrics.comparisons == Last(steps).metrics.comparisons + (|a| - i - 1)
    ensures Last(steps').values == a' && Last(steps').highlights == Plain.(sorted := Some(SettledIndices(|a|, i)))
  {
    a', steps' := Pass(a, i, steps);
    assert steps'[0] == steps'[..|steps|][0];
    var settled := Step(a', Plain.(sorted := Some(SettledIndices(|a|, i))), Last(steps').metrics);
    Push(steps', settled, multiset(a));
    steps' := steps' + [settled];
  }

  /** The outer loop of the simulator: n-1 rounds after the initial snapshot. */
  method Rounds(input: seq<int>) returns (a: seq<int>, steps: seq<Step>)
    ensures |a| == |input| && multiset(a) == multiset(input) && SettledFrom(a, 1)
    ensures Good(steps, multiset(input)) && steps[0] == Step(input, Plain, BubbleCounts(0, 0, 0))
    ensures Last(steps).metrics.comparisons == Pairs(|input|)
  {
    var n := |input|;
    a := input;
    steps := [Step(input, Plain, BubbleCounts(0, 0, 0))];
    var i := 0;
    while i + 1 < n
      invariant 0 <= i <= n
      invariant |a| == n && multiset(a) == multiset(input) && SettledFrom(a, n - i)
      invariant Good(steps, multiset(input)) && steps[0] == Step(input, Plain, BubbleCounts(0, 0, 0))
      invariant Last(steps).metrics.comparisons + Pairs(n - i) == Pairs(n)
    {
      a, steps := Round(a, i, steps);
      i := i + 1;
    }
  }

  /**
   * `simulateBubbleSort`: the initial copy, n-1 passes each followed by a
   * step marking the settled suffix, and the final all-sorted step.
   */
  method Simulate(input: seq<int>) returns (steps: seq<Step>)
    ensures |steps| >= 2
    ensures steps[0] == Step(input, Plain, BubbleCounts(0, 0, 0))
    ensures Ascending(Last(steps).values) && multiset(Last(steps).values) == multiset(input)
    ensures Last(steps).highlights == Plain.(sorted := Some(Indices(|input|)))
    ensures Last(steps).metrics.comparisons == |input| * (|input| - 1) / 2
    ensures Monotone(steps) && AllBalanced(steps) && AllPerm(steps, multiset(input))
  {
    var a;
    a, steps := Rounds(input);
    var final := Step(a, Plain.(sorted := Some(Indices(|input|))), Last(steps).metrics);
    Push(steps, final, multiset(input));
    steps := steps + [final];
    ChainMeans(steps, multiset(input), true);
    PairsClosedForm(|input|);
  }
}

=== FILE: classifier.dfy ===
/**
 * The source classifier: which of the five sorting algorithms a piece of
 * OCaml text implements, decided by substring tests. Keyword tests look at
 * the lower-cased text, the code-shape tests at the text as written. Only
 * ASCII letters are lower-cased.
 */
module Classifier {

  /** ASCII lower-casing of one character. */
  function LowerChar(c: char): char {
    if 'A' <= c <= 'Z' then (c as int - 'A' as int + 'a' as int) as char else c
  }

  /** `toLowerCase` on ASCII text: every character lower-cased in place. */
  function ToLower(s: string): (r: string)
    ensures |r| == |s|
    ensures forall i :: 0 <= i < |s| ==> r[i] == LowerChar(s[i])
  {
    if |s| == 0 then [] else ToLower(s[..|s| - 1]) + [LowerChar(s[|s| - 1])]
  }

  /** A pattern with no upper-case ASCII letter, which lower-casing leaves alone. */
  predicate IsLower(p: string) {
    forall i :: 0 <= i < |p| ==> LowerChar(p[i]) == p[i]
  }

  predicate StartsWith(text: string, pat: string) {
    |pat| <= |text| && text[..|pat|] == pat
  }

  /** `text.includes(pat)`, as a scan of the start positions from the left. */
  predicate Contains(text: string, pat: string)
    decreases |text|
  {
    StartsWith(text, pat) || (|text| > 0 && Contains(text[1..], pat))
  }

  /** The pattern occurs at position i of the text. */
  predicate At(text: string, pat: string, i: int) {
    0 <= i && i + |pat| <= |text| && text[i..i + |pat|] == pat
  }

  /** The pattern occurs at some position of the text. */
  ghost predicate Occurs(text: string, pat: string) {
    exists i :: At(text, pat, i)
  }

  /** The left-to-right scan finds the pattern exactly when it occurs somewhere. */
  lemma {:induction false} ContainsIff(text: string, pat: string)
    ensures Contains(text, pat) <==> Occurs(text, pat)
    decreases |text|
  {
    if StartsWith(text, pat) {
      assert At(text, pat, 0);
    } else if |text| > 0 {
      ContainsIff(text[1..], pat);
      if Contains(text[1..], pat) {
        var i :| At(text[1..], pat, i);
        assert At(text, pat, i + 1);
      }
      if Occurs(text, pat) {
        var i :| At(text, pat, i);
        if i > 0 {
          assert text[1..][i - 1..i - 1 + |pat|] == text[i..i + |pat|];
          assert At(text[1..], pat, i - 1);
        }
      }
    }
  }

  /** A lower-case pattern found in the text is also found in the lower-cased text. */
  lemma LowerKeepsPattern(text: string, pat: string)
    requires IsLower(pat) && Contains(text, pat)
    ensures Contains(ToLower(text), pat)
  {
    ContainsIff(text, pat);
    ContainsIff(ToLower(text), pat);
    var i :| At(text, pat, i);
    var low := ToLower(text);
    forall k | 0 <= k < |pat|
      ensures low[i + k] == pat[k]
    {
      assert text[i + k] == text[i..i + |pat|][k];
    }
    assert low[i..i + |pat|] == pat;
    assert At(low, pat, i);
  }

  /** The algorithm ids the classifier can return. */
  predicate KnownId(id: string) {
    id == "bubble_sort" || id == "quick_sort" || id == "merge_sort"
    || id == "selection_sort" || id == "insertion_sort" || id == "unknown"
  }

  predicate HasBubblePattern(code: string) {
    Contains(code, "for") && Contains(code, "arr.(j)") && Contains(code, "arr.(j + 1)")
  }

  predicate HasQuickSortPattern(code: string) {
    Contains(code, "partition") || (Contains(code, "pivot") && Contains(code, "rec"))
  }

  predicate HasMergeSortPattern(code: string) {
    Contains(code, "merge") && (Contains(code, "rec") || Contains(code, "/"))
  }

  predicate HasSelectionSortPattern(code: string) {
    Contains(code, "min") && Contains(code, "for")
  }

  predicate HasInsertionSortPattern(code: string) {
    Contains(code, "key") && Contains(code, "while")
  }

  /** `detectByPatterns`: a `for` loop suggests bubble sort, else `rec` suggests quick sort. */
  function DetectByPatterns(code: string): (id: string)
    ensures id == "bubble_sort" <==> Contains(code, "for")
    ensures id == "quick_sort" <==> !Contains(code, "for") && Contains(code, "rec")
    ensures id == "unknown" <==> !Contains(code, "for") && !Contains(code, "rec")
  {
    if Contains(code, "for") then "bubble_sort"
    else if Contains(code, "rec") then "quick_sort"
    else "unknown"
  }

  /**
   * The tests of `detectAlgorithmType` in the order it tries them: 0 bubble,
   * 1 quick, 2 merge, 3 selection, 4 insertion. Each is a keyword in the
   * lower-cased text or the algorithm's code shape in the text as written.
   */
  predicate Test(code: string, k: nat) {
    var lower := ToLower(code);
    match k
    case 0 => Contains(lower, "bubble") || HasBubblePattern(code)
    case 1 => Contains(lower, "quick") || Contains(lower, "partition") || HasQuickSortPattern(code)
    case 2 => Contains(lower, "merge") || HasMergeSortPattern(code)
    case 3 => Contains(lower, "selection") || HasSelectionSortPattern(code)
    case 4 => Contains(lower, "insertion") || HasInsertionSortPattern(code)
    case _ => false
  }

  /** The id that test k returns. */
  function IdOf(k: nat): string {
    match k
    case 0 => "bubble_sort"
    case 1 => "quick_sort"
    case 2 => "merge_sort"
    case 3 => "selection_sort"
    case 4 => "insertion_sort"
    case _ => "unknown"
  }

  /** The five tests unfolded, so that a quantifier over k meets each of them. */
  lemma TestsInOrder(code: string)
    ensures Test(code, 0) == (Contains(ToLower(code), "bubble") || HasBubblePattern(code))
    ensures Test(code, 1) == (Contains(ToLower(code), "quick") || Contains(ToLower(code), "partition") || HasQuickSortPattern(code))
    ensures Test(code, 2) == (Contains(ToLower(code), "merge") || HasMergeSortPattern(code))
    ensures Test(code, 3) == (Contains(ToLower(code), "selection") || HasSelectionSortPattern(code))
    ensures Test(code, 4) == (Contains(ToLower(code), "insertion") || HasInsertionSortPattern(code))
  {
  }

  /** Test k is the first that passes. */
  predicate Decides(code: string, k: nat) {
    k < 5 && Test(code, k) && forall q: nat :: q < k ==> !Test(code, q)
  }

  /**
   * `detectAlgorithmType`: the first test that passes decides, and the
   * fallback patterns decide when none does. Merge, selection and insertion
   * sort are reported only by their own test, as the first to pass.
   */
  function DetectAlgorithmType(code: string): (id: string)
    ensures KnownId(id)
    ensures forall k: nat :: Decides(code, k) ==> id == IdOf(k)
    ensures (forall k: nat :: k < 5 ==> !Test(code, k)) ==> id == DetectByPatterns(code)
    ensures forall k: nat :: 2 <= k < 5 ==> (id == IdOf(k) <==> Decides(code, k))
    ensures Contains(ToLower(code), "bubble") ==> id == "bubble_sort"
  {
    var lower := ToLower(code);
    TestsInOrder(code);
    if Contains(lower, "bubble") || HasBubblePattern(code) then "bubble_sort"
    else if Contains(lower, "quick") || Contains(lower, "partition") || HasQuickSortPattern(code) then "quick_sort"
    else if Contains(lower, "merge") || HasMergeSortPattern(code) then "merge_sort"
    else if Contains(lower, "selection") || HasSelectionSortPattern(code) then "selection_sort"
    else if Contains(lower, "insertion") || HasInsertionSortPattern(code) then "insertion_sort"
    else DetectByPatterns(code)
  }

  /** No algorithm keyword in any letter case. */
  predicate NoKeyword(code: string) {
    var lower := ToLower(code);
    !Contains(lower, "bubble") && !Contains(lower, "quick") && !Contains(lower, "partition")
    && !Contains(lower, "merge") && !Contains(lower, "selection") && !Contains(lower, "insertion")
  }

  /**
   * The text is unclassified exactly when it names no algorithm in any
   * letter case, has no `for` and no `rec`, and does not use both `key`
   * and `while`. The other code-shape tests need a `for`, a `rec`, or a
   * lower-case keyword, so they add nothing.
   */
  lemma UnknownIff(code: string)
    ensures DetectAlgorithmType(code) == "unknown" <==>
      NoKeyword(code) && !Contains(code, "for") && !Contains(code, "rec")
      && !(Contains(code, "key") && Contains(code, "while"))
  {
    if Contains(code, "partition") {
      LowerKeepsPattern(code, "partition");
    }
    if Contains(code, "merge") {
      LowerKeepsPattern(code, "merge");
    }
  }

  /** The keyword tests ignore letter case: two texts that agree once lower-cased make the same keyword decisions. */
  lemma KeywordsIgnoreCase(a: string, b: string)
    requires ToLower(a) == ToLower(b)
    ensures NoKeyword(a) <==> NoKeyword(b)
    ensures Contains(ToLower(a), "bubble") ==> DetectAlgorithmType(a) == DetectAlgorithmType(b) == "bubble_sort"
  {
  }

  /** Only a text at least as long as the pattern can contain it. */
  lemma ShortTextMisses(text: string, pat: string)
    requires |text| < |pat|
    ensures !Contains(text, pat)
  {
    ContainsIff(text, pat);
  }

  /** A three-letter text contains a three-letter pattern only by being it. */
  lemma ThreeLetters(text: string, pat: string)
    requires |text| == |pat| == 3
    ensures Contains(text, pat) <==> text == pat
  {
    ContainsIff(text, pat);
    if Occurs(text, pat) {
      var i :| At(text, pat, i);
      assert text[0..3] == text;
    }
    if text == pat {
      assert At(text, pat, 0);
    }
  }

  /** An algorithm name in capitals is still recognised. */
  lemma UpperCaseKeyword()
    ensures DetectAlgorithmType("BUBBLE") == "bubble_sort"
  {
    assert ToLower("BUBBLE") == "bubble";
    assert StartsWith("bubble", "bubble");
  }

  /** The code-shape tests are case-sensitive: `for` is a loop, `FOR` is not, and without anything else `FOR` stays unclassified. */
  lemma CaseSensitivePatterns()
    ensures DetectAlgorithmType("for") == "bubble_sort"
    ensures DetectAlgorithmType("FOR") == "unknown"
  {
    assert StartsWith("for", "for");
    UpperForIsUnknown();
  }

  /** `FOR` matches no keyword and, being upper-case, none of the code shapes. */
  lemma UpperForIsUnknown()
    ensures DetectAlgorithmType("FOR") == "unknown"
  {
    var low := ToLower("FOR");
    assert low == "for";
    ThreeLetters("FOR", "for");
    ThreeLetters("FOR", "rec");
    ThreeLetters("FOR", "key");
    ShortTextMisses(low, "bubble");
    ShortTextMisses(low, "quick");
    ShortTextMisses(low, "partition");
    ShortTextMisses(low, "merge");
    ShortTextMisses(low, "selection");
    ShortTextMisses(low, "insertion");
    UnknownIff("FOR");
  }

  /** Empty text is unclassified. */
  lemma EmptyIsUnknown()
    ensures DetectAlgorithmType("") == "unknown"
  {
    ShortTextMisses("", "for");
    ShortTextMisses("", "rec");
    ShortTextMisses("", "key");
    ShortTextMisses("", "bubble");
    ShortTextMisses("", "quick");
    ShortTextMisses("", "partition");
    ShortTextMisses("", "merge");
    ShortTextMisses("", "selection");
    ShortTextMisses("", "insertion");
    UnknownIff("");
  }

  /** Time and space complexity strings shown for an algorithm. */
  datatype Complexity = Complexity(time: string, space: string)

  /** `analyzeComplexity`: a table lookup, with the `unknown` entry for every other id. */
  function AnalyzeComplexity(id: string): (c: Complexity)
    ensures id == "bubble_sort" || id == "selection_sort" || id == "insertion_sort" ==> c == Complexity("O(n²)", "O(1)")
    ensures id == "quick_sort" ==> c == Complexity("O(n log n)", "O(log n)")
    ensures id == "merge_sort" ==> c == Complexity("O(n log n)", "O(n)")
    ensures !KnownId(id) || id == "unknown" ==> c == Complexity("Unknown", "Unknown")
  {
    if id == "bubble_sort" || id == "selection_sort" || id == "insertion_sort" then Complexity("O(n²)", "O(1)")
    else if id == "quick_sort" then Complexity("O(n log n)", "O(log n)")
    else if id == "merge_sort" then Complexity("O(n log n)", "O(n)")
    else Complexity("Unknown", "Unknown")
  }

  /** The result record of `parse`. */
  datatype ParseResult = ParseResult(success: bool, algorithmType: string, complexity: Complexity, hasErrors: bool, errors: seq<string>)

  /**
   * `parse`: classification never fails, so every text gives a successful
   * result with no errors, its detected id, and that id's complexity.
   */
  function Parse(code: string): (r: ParseResult)
    ensures r.success && !r.hasErrors && r.errors == []
    ensures r.algorithmType == DetectAlgorithmType(code) && KnownId(r.algorithmType)
    ensures r.complexity == AnalyzeComplexity(r.algorithmType)
    ensures r.complexity.time == "Unknown" <==> r.algorithmType == "unknown"
  {
    var id := DetectAlgorithmType(code);
    ParseResult(true, id, AnalyzeComplexity(id), false, [])
  }
}

=== FILE: controls.dfy ===
/**
 * The state effects of the control handlers: the size slider, the speed
 * slider and the array-type selector. The redraw of a preview array and the
 * text updates are not part of the state and are left out.
 */
module Controls {
  import opened Wrappers
  import opened Playback

  /**
   * The size slider's `input` event: the new size is stored and the
   * installed trace is dropped, with the display back at step 0. Playback is
   * not switched off.
   */
  function SizeInput(app: App, size: nat): (r: App)
    ensures r.size == size && r.steps == [] && r.current == 0 && Valid(r)
    ensures r.playing == app.playing && r.speed == app.speed
    ensures r.kind == app.kind && r.algorithm == app.algorithm
  {
    app.(size := size, steps := [], current := 0)
  }

  /** The speed slider: only the speed changes. */
  function SpeedInput(app: App, speed: int): (r: App)
    ensures r.speed == speed
    ensures r.steps == app.steps && r.current == app.current && r.playing == app.playing
    ensures r.size == app.size && r.kind == app.kind && r.algorithm == app.algorithm
  {
    app.(speed := speed)
  }

  /**
   * The array-type selector: the new type is stored and the installed trace
   * is dropped, with the display back at step 0. Playback is not switched off.
   */
  function TypeChange(app: App, kind: string): (r: App)
    ensures r.kind == kind && r.steps == [] && r.current == 0 && Valid(r)
    ensures r.playing == app.playing && r.speed == app.speed
    ensures r.size == app.size && r.algorithm == app.algorithm
  {
    app.(kind := kind, steps := [], current := 0)
  }

  /**
   * Dropping the trace leaves playback on, but the next pending tick stops
   * it: with no steps the display is already at (or past) the last one.
   */
  lemma InvalidationStopsPlayback(app: App, size: nat, kind: string)
    ensures Animate(SizeInput(app, size)) == Tick(SizeInput(app, size).(playing := false), None)
    ensures Animate(TypeChange(app, kind)) == Tick(TypeChange(app, kind).(playing := false), None)
  {
  }

  /** A speed change does not disturb a running playback: the next tick advances exactly as before, at the new pace. */
  lemma SpeedKeepsPlayback(app: App, speed: int)
    ensures Animate(SpeedInput(app, speed)).next.Some? <==> Animate(app).next.Some?
    ensures Animate(SpeedInput(app, speed)).app.current == Animate(app).app.current
    ensures Animate(SpeedInput(app, speed)).next.Some? ==> Animate(SpeedInput(app, speed)).next.value == TickDelay(speed)
  {
  }
}

=== FILE: debugger.dfy ===
/**
 * The step debugger: stepping in a named direction and jumping to a step by
 * number, both on the application's playback state.
 */
module Debugger {
  import opened Playback

  /**
   * `step(direction)`: "forward" is a step forward, "backward" a step back,
   * and any other direction changes nothing.
   */
  function StepIn(app: App, direction: string): (r: App)
    ensures direction == "forward" ==> r == StepForward(app)
    ensures direction == "backward" ==> r == StepBack(app)
    ensures direction != "forward" && direction != "backward" ==> r == app
    ensures r.steps == app.steps && r.playing == app.playing
    ensures Valid(app) ==> Valid(r)
  {
    if direction == "forward" then StepForward(app)
    else if direction == "backward" then StepBack(app)
    else app
  }

  /**
   * `goToStep(k)`: a step number of the trace becomes the displayed step;
   * a negative number, one past the end, or any number on an empty trace is
   * ignored rather than clamped. Playback is never switched on or off.
   */
  function GoToStep(app: App, k: int): (r: App)
    ensures 0 <= k < |app.steps| ==> r.current == k
    ensures !(0 <= k < |app.steps|) ==> r == app
    ensures r.steps == app.steps && r.playing == app.playing && r.speed == app.speed
    ensures r.size == app.size && r.kind == app.kind && r.algorithm == app.algorithm
    ensures Valid(app) ==> Valid(r)
  {
    if 0 <= k < |app.steps| then app.(current := k) else app
  }

  /** Jumping twice to the same step is the same as jumping once. */
  lemma GoToStepIdempotent(app: App, k: int)
    ensures GoToStep(GoToStep(app, k), k) == GoToStep(app, k)
  {
  }

  /** After a jump to a step of the trace, stepping back and forward again returns there, except at the ends. */
  lemma GoToThenStep(app: App, k: int)
    requires 0 < k < |app.steps| - 1
    ensures StepIn(StepIn(GoToStep(app, k), "backward"), "forward") == GoToStep(app, k)
    ensures StepIn(StepIn(GoToStep(app, k), "forward"), "backward") == GoToStep(app, k)
  {
    ForwardBackInverse(GoToStep(app, k));
  }
}

=== FILE: engine.dfy ===
/**
 * `generateSortingSteps`: a fresh input array from the generator settings,
 * the simulator chosen by the algorithm id, and the new trace installed at
 * its first step.
 */
module Engine {
  import opened Wrappers
  import opened Trace
  import opened Playback
  import Generator
  import BubbleSort
  import QuickSort
  import MergeSort
  import SelectionSort
  import InsertionSort

  datatype Algorithm = Bubble | Quick | Merge | Selection | Insertion

  /** The id string the application uses for each simulator. */
  function Id(alg: Algorithm): string {
    match alg
    case Bubble => "bubble_sort"
    case Quick => "quick_sort"
    case Merge => "merge_sort"
    case Selection => "selection_sort"
    case Insertion => "insertion_sort"
  }

  /**
   * The simulator an algorithm id selects: the one with that id, and the
   * bubble-sort simulator for every other string, "unknown" included.
   */
  function AlgorithmOf(id: string): (alg: Algorithm)
    ensures forall a :: Id(a) == id ==> alg == a
    ensures alg != Bubble ==> Id(alg) == id
  {
    if id == "quick_sort" then Quick
    else if id == "merge_sort" then Merge
    else if id == "selection_sort" then Selection
    else if id == "insertion_sort" then Insertion
    else Bubble
  }

  /** The first step each simulator emits for `input`: the input itself with its initial counters. */
  function FirstStep(alg: Algorithm, input: seq<int>): Step {
    match alg
    case Bubble => Step(input, Plain, BubbleCounts(0, 0, 0))
    case Insertion => Step(input, Plain.(sorted := Some([0])), SwapCounts(0, 0))
    case Merge => Step(input, Plain, MergeCounts(0, 0))
    case _ => Step(input, Plain, SwapCounts(0, 0))
  }

  /**
   * What every simulator guarantees of its trace: at least two steps, the
   * last one the ascending permutation of the input with every index marked
   * sorted, counters that never decrease, and every step taken between
   * element moves a permutation of the input.
   */
  predicate Sorts(input: seq<int>, steps: seq<Step>) {
    |steps| >= 2
    && Ascending(Last(steps).values) && multiset(Last(steps).values) == multiset(input)
    && Last(steps).highlights == Plain.(sorted := Some(Indices(|input|)))
    && Monotone(steps) && CheckpointPerm(steps, multiset(input))
  }

  /** The switch on the algorithm: the chosen simulator run on the input. */
  method Dispatch(alg: Algorithm, input: seq<int>) returns (steps: seq<Step>)
    ensures |steps| >= 1 && steps[0] == FirstStep(alg, input)
    ensures Sorts(input, steps)
    ensures alg == Bubble ==> BubbleSort.AllBalanced(steps)
  {
    match alg
    case Bubble => steps := BubbleSort.Simulate(input);
    case Quick => steps := QuickSort.Simulate(input);
    case Merge => steps := MergeSort.Simulate(input);
    case Selection => steps := SelectionSort.Simulate(input);
    case Insertion => steps := InsertionSort.Simulate(input);
  }

  /**
   * `generateSortingSteps`: the trace of the selected simulator on a freshly
   * generated array, shown from its first step. The playing flag is left as
   * it was, and the generator settings are not changed.
   */
  method GenerateSortingSteps(app: App, rand: nat -> Generator.Random) returns (app': App)
    ensures app'.current == 0 && Valid(app')
    ensures app'.playing == app.playing && app'.speed == app.speed
    ensures app'.size == app.size && app'.kind == app.kind && app'.algorithm == app.algorithm
    ensures Sorts(Generator.GenerateArray(app.size, app.kind, rand), app'.steps)
    ensures app'.steps[0] == FirstStep(AlgorithmOf(app.algorithm), Generator.GenerateArray(app.size, app.kind, rand))
  {
    var input := Generator.GenerateArray(app.size, app.kind, rand);
    var steps := Dispatch(AlgorithmOf(app.algorithm), input);
    app' := app.(steps := steps, current := 0);
  }
}

=== FILE: generator.dfy ===
/**
 * `generateArray`: the input array for the simulators, built from the
 * selected size and array type. `Math.random()` is not modelled as a
 * floating-point number: each call is a draw, a fraction num/den in [0, 1),
 * and `Math.floor(Math.random() * k)` is num*k/den. The draws of one call of
 * the generator are supplied as the function `rand`, the t-th draw being rand(t).
 */
module Generator {
  import opened Wrappers
  import opened Trace

  datatype Draw = Draw(num: nat, den: nat)

  /** A value of `Math.random()`: a fraction in [0, 1). */
  type Random = d: Draw | d.num < d.den witness Draw(0, 1)

  /** a*k < b*k for a < b and positive k. */
  lemma {:induction false} MulBelow(a: nat, b: nat, k: nat)
    requires a < b && k > 0
    ensures a * k < b * k
  {
    if k > 1 {
      MulBelow(a, b, k - 1);
      assert a * k == a * (k - 1) + a && b * k == b * (k - 1) + b;
    }
  }

  /** x / den < k whenever x < den * k. */
  lemma DivBelow(x: nat, den: nat, k: nat)
    requires den > 0 && x < den * k
    ensures x / den < k
  {
  }

  /** `Math.floor(d * k)`: an index below k whenever k is positive. */
  function Pick(d: Random, k: nat): (r: nat)
    ensures k > 0 ==> r < k
  {
    if k > 0 then
      MulBelow(d.num, d.den, k);
      DivBelow(d.num * k, d.den, k);
      d.num * k / d.den
    else d.num * k / d.den
  }

  /** The number of exchanges applied to a nearly-sorted array: max(1, floor(size/10)). */
  function ShuffleRounds(size: nat): nat {
    if size / 10 < 1 then 1 else size / 10
  }

  /** The number of distinct values of a duplicates array: max(3, floor(size/4)). */
  function DistinctValues(size: nat): nat {
    if size / 4 < 3 then 3 else size / 4
  }

  /** The first n cells of a random array: floor(rand(t) * 3*size) + 1 at index t. */
  function RandomCells(n: nat, size: nat, rand: nat -> Random): (r: seq<int>)
    requires n <= size
    ensures |r| == n
    ensures forall t :: 0 <= t < n ==> r[t] == Pick(rand(t), 3 * size) + 1 && 1 <= r[t] <= 3 * size
  {
    if n == 0 then [] else RandomCells(n - 1, size, rand) + [Pick(rand(n - 1), 3 * size) + 1]
  }

  /** The first n cells of the reverse array: size - t at index t. */
  function ReverseCells(n: nat, size: nat): (r: seq<int>)
    ensures |r| == n
    ensures forall t :: 0 <= t < n ==> r[t] == size - t
  {
    if n == 0 then [] else ReverseCells(n - 1, size) + [size - (n - 1)]
  }

  /** The ascending array 1, 2, ..., n. */
  function Ramp(n: nat): (r: seq<int>)
    ensures |r| == n
    ensures forall t :: 0 <= t < n ==> r[t] == t + 1
  {
    if n == 0 then [] else Ramp(n - 1) + [n]
  }

  /** The first n cells of a duplicates array: value (floor(rand(t) * u) + 1) * 5 with u distinct values. */
  function DuplicateCells(n: nat, u: nat, rand: nat -> Random): (r: seq<int>)
    requires u > 0
    ensures |r| == n
    ensures forall t :: 0 <= t < n ==> r[t] == (Pick(rand(t), u) + 1) * 5 && r[t] % 5 == 0 && 5 <= r[t] <= 5 * u
  {
    if n == 0 then [] else DuplicateCells(n - 1, u, rand) + [(Pick(rand(n - 1), u) + 1) * 5]
  }

  /**
   * The exchanges of the nearly-sorted case, rounds `done` .. `rounds`-1:
   * round t swaps the cells at floor(rand(2t) * size) and floor(rand(2t+1) * size).
   */
  function Shuffle(a: seq<int>, done: nat, rounds: nat, rand: nat -> Random): (r: seq<int>)
    requires |a| > 0
    ensures |r| == |a| && multiset(r) == multiset(a)
    decreases rounds - done
  {
    if done >= rounds then a
    else
      var i, j := Pick(rand(2 * done), |a|), Pick(rand(2 * done + 1), |a|);
      SwapFacts(a, i, j);
      Shuffle(Swap(a, i, j), done + 1, rounds, rand)
  }

  /**
   * The nearly-sorted array: 1..size with max(1, floor(size/10)) random
   * exchanges. With size 0 there is nothing to exchange and the array is empty.
   */
  function NearlySorted(size: nat, rand: nat -> Random): (r: seq<int>)
    ensures |r| == size && multiset(r) == multiset(Ramp(size))
  {
    if size == 0 then [] else Shuffle(Ramp(size), 0, ShuffleRounds(size), rand)
  }

  /**
   * The nearly-sorted case exactly as written: the exchange loop also runs
   * once on an empty array, and `[array[0], array[0]] = [array[0], array[0]]`
   * then writes `undefined` into cell 0, leaving an array of length 1 that
   * holds no number. None stands for that array.
   */
  function NearlySortedAsWritten(size: nat, rand: nat -> Random): (r: Option<seq<int>>)
    ensures size > 0 ==> r == Some(NearlySorted(size, rand))
  {
    if size == 0 then None else Some(Shuffle(Ramp(size), 0, ShuffleRounds(size), rand))
  }

  /** On an empty array the as-written nearly-sorted case gives something other than the empty array. */
  lemma NearlySortedEmptyDiffers(rand: nat -> Random)
    ensures NearlySortedAsWritten(0, rand) != Some([])
    ensures NearlySorted(0, rand) == []
    ensures ShuffleRounds(0) == 1 && Pick(rand(0), 0) == 0
  {
  }

  /**
   * `generateArray` for the given size and type: `size` cells for the four
   * known types, each within its type's range, and the empty array for any
   * other type.
   */
  function GenerateArray(size: nat, kind: string, rand: nat -> Random): (r: seq<int>)
    ensures kind in {"random", "reverse", "nearly-sorted", "duplicates"} ==> |r| == size
    ensures kind !in {"random", "reverse", "nearly-sorted", "duplicates"} ==> r == []
    ensures kind == "random" ==> forall t :: 0 <= t < |r| ==> 1 <= r[t] <= 3 * size
    ensures kind == "reverse" ==> forall t :: 0 <= t < |r| ==> r[t] == size - t
    ensures kind == "nearly-sorted" ==> multiset(r) == multiset(Ramp(size))
    ensures kind == "duplicates" ==> forall t :: 0 <= t < |r| ==> r[t] % 5 == 0 && 5 <= r[t] <= 5 * DistinctValues(size)
  {
    if kind == "random" then RandomCells(size, size, rand)
    else if kind == "reverse" then ReverseCells(size, size)
    else if kind == "nearly-sorted" then NearlySorted(size, rand)
    else if kind == "duplicates" then DuplicateCells(size, DistinctValues(size), rand)
    else []
  }

  /** The nearly-sorted array is a permutation of 1..size. */
  lemma NearlySortedIsPermutation(size: nat, rand: nat -> Random)
    ensures multiset(GenerateArray(size, "nearly-sorted", rand)) == multiset(Ramp(size))
    ensures forall t :: 0 <= t < size ==> 1 <= GenerateArray(size, "nearly-sorted", rand)[t] <= size
  {
    var r := GenerateArray(size, "nearly-sorted", rand);
    forall t | 0 <= t < size
      ensures 1 <= r[t] <= size
    {
      assert r[t] in multiset(Ramp(size));
      var k :| 0 <= k < size && Ramp(size)[k] == r[t];
    }
  }
}

=== FILE: insertion.dfy ===
/**
 * The insertion-sort simulator. Each round lifts a[i] out as the key and
 * shifts the larger cells of the sorted prefix one place right, so between
 * the first shift and the final write of the key the snapshot holds one
 * element twice and has lost the key: only the round boundaries are
 * permutations of the input.
 */
module InsertionSort {
  import opened Wrappers
  import opened Trace

  /** How many elements of `s` are greater than `x`. */
  function CountAbove(s: seq<int>, x: int): (r: nat)
    ensures r <= |s|
  {
    if |s| == 0 then 0 else CountAbove(s[..|s| - 1], x) + (if s[|s| - 1] > x then 1 else 0)
  }

  /**
   * The number of inversions of `s`: pairs p < q with s[p] > s[q], counted
   * for each q as the elements before it that are greater than it.
   */
  function Inversions(s: seq<int>): nat {
    if |s| == 0 then 0 else Inversions(s[..|s| - 1]) + CountAbove(s[..|s| - 1], s[|s| - 1])
  }

  lemma {:induction false} CountAboveAppend(a: seq<int>, b: seq<int>, x: int)
    ensures CountAbove(a + b, x) == CountAbove(a, x) + CountAbove(b, x)
    decreases |b|
  {
    if |b| == 0 {
      assert a + b == a;
    } else {
      assert (a + b)[..|a + b| - 1] == a + b[..|b| - 1];
      CountAboveAppend(a, b[..|b| - 1], x);
    }
  }

  /** CountAbove is 0 exactly when no element exceeds x, and |s| exactly when all do. */
  lemma {:induction false} CountAboveExtremes(s: seq<int>, x: int)
    ensures CountAbove(s, x) == 0 <==> forall k :: 0 <= k < |s| ==> s[k] <= x
    ensures CountAbove(s, x) == |s| <==> forall k :: 0 <= k < |s| ==> s[k] > x
  {
    if |s| > 0 {
      var init := s[..|s| - 1];
      CountAboveExtremes(init, x);
      assert forall k :: 0 <= k < |init| ==> init[k] == s[k];
      assert CountAbove(init, x) <= |init|;
    }
  }

  /** Removing the element at k removes one copy of it from the multiset and from the count. */
  lemma RemoveAt(t: seq<int>, k: int, x: int)
    requires 0 <= k < |t|
    ensures multiset(t[..k] + t[k + 1..]) == multiset(t) - multiset{t[k]}
    ensures CountAbove(t, x) == CountAbove(t[..k] + t[k + 1..], x) + (if t[k] > x then 1 else 0)
  {
    assert t == t[..k] + [t[k]] + t[k + 1..];
    assert multiset(t) == multiset(t[..k]) + multiset{t[k]} + multiset(t[k + 1..]);
    CountAboveAppend(t[..k] + [t[k]], t[k + 1..], x);
    CountAboveAppend(t[..k], [t[k]], x);
    CountAboveAppend(t[..k], t[k + 1..], x);
    assert [t[k]][..0] == [];
  }

  /** The count depends only on which elements there are, not on their order. */
  lemma {:induction false} CountAboveMultiset(s: seq<int>, t: seq<int>, x: int)
    requires multiset(s) == multiset(t)
    ensures CountAbove(s, x) == CountAbove(t, x)
    decreases |s|
  {
    if |s| == 0 {
      assert |t| == |multiset(t)| == 0;
    } else {
      var e := s[|s| - 1];
      var init := s[..|s| - 1];
      assert multiset(init) == multiset(s) - multiset{e} by {
        assert s == init + [e];
      }
      assert e in multiset(t);
      var k :| 0 <= k < |t| && t[k] == e;
      RemoveAt(t, k, x);
      CountAboveMultiset(init, t[..k] + t[k + 1..], x);
    }
  }

  /** A sequence has no inversions exactly when it is ascending. */
  lemma {:induction false} InversionsZeroIffAscending(s: seq<int>)
    ensures Inversions(s) == 0 <==> Ascending(s)
  {
    if |s| > 0 {
      var init := s[..|s| - 1];
      var e := s[|s| - 1];
      InversionsZeroIffAscending(init);
      CountAboveExtremes(init, e);
      if Inversions(s) == 0 {
        forall p, q | 0 <= p < q < |s|
          ensures s[p] <= s[q]
        {
          assert s[p] == init[p];
          if q < |s| - 1 { assert s[q] == init[q]; }
        }
      }
      if Ascending(s) {
        assert Ascending(init) by {
          forall p, q | 0 <= p < q < |init|
            ensures init[p] <= init[q]
          {
            assert init[p] == s[p] && init[q] == s[q];
          }
        }
        forall k | 0 <= k < |init|
          ensures init[k] <= e
        {
          assert init[k] == s[k];
        }
      }
    }
  }

  /** The first `i` cells are ascending. */
  predicate PrefixAscending(a: seq<int>, i: int) {
    forall p, q :: 0 <= p < q < i && q < |a| ==> a[p] <= a[q]
  }

  /**
   * The state of the shifting loop of round i with key a[i] at index j: the
   * cells up to j+1 are untouched, a[j+1..i-1] (all greater than the key) have
   * each moved one place right, and the cells after i are untouched.
   */
  predicate Shifted(a: seq<int>, w: seq<int>, i: int, j: int) {
    && 0 <= i < |a| == |w| && -1 <= j < i
    && (forall k :: 0 <= k <= j + 1 ==> w[k] == a[k])
    && (forall k :: j + 2 <= k <= i ==> w[k] == a[k - 1])
    && (forall k :: i < k < |a| ==> w[k] == a[k])
    && (forall k :: j + 1 <= k < i ==> a[k] > a[i])
  }

  /** Writing the key into the gap at j+1 gives a[..j+1] + [key] + a[j+1..i] + a[i+1..]. */
  lemma InsertShape(a: seq<int>, w: seq<int>, i: int, j: int)
    requires Shifted(a, w, i, j)
    ensures w[j + 1 := a[i]] == a[..j + 1] + [a[i]] + a[j + 1..i] + a[i + 1..]
  {
    var v := w[j + 1 := a[i]];
    var u := a[..j + 1] + [a[i]] + a[j + 1..i] + a[i + 1..];
    assert |v| == |u|;
    forall k | 0 <= k < |v|
      ensures v[k] == u[k]
    {
      if k <= j {
      } else if k == j + 1 {
      } else if k <= i {
        assert u[k] == a[j + 1..i][k - j - 2];
      } else {
        assert u[k] == a[i + 1..][k - i - 1];
      }
    }
  }

  /**
   * Writing the key into the gap at j+1 gives a permutation of a, with the
   * first i+1 cells ascending and the cells after i untouched.
   */
  lemma Insert(a: seq<int>, w: seq<int>, i: int, j: int)
    requires Shifted(a, w, i, j) && PrefixAscending(a, i)
    requires j >= 0 ==> a[j] <= a[i]
    ensures multiset(w[j + 1 := a[i]]) == multiset(a)
    ensures PrefixAscending(w[j + 1 := a[i]], i + 1)
    ensures forall k :: i < k < |a| ==> w[j + 1 := a[i]][k] == a[k]
    ensures multiset(w[j + 1 := a[i]][..i + 1]) == multiset(a[..i + 1])
    ensures CountAbove(a[..i], a[i]) == i - 1 - j
  {
    InsertShape(a, w, i, j);
    InsertMultiset(a, i, j);
    InsertSorted(a, w, i, j);
    InsertCount(a, i, j);
  }

  lemma InsertSorted(a: seq<int>, w: seq<int>, i: int, j: int)
    requires Shifted(a, w, i, j) && PrefixAscending(a, i)
    requires j >= 0 ==> a[j] <= a[i]
    ensures PrefixAscending(w[j + 1 := a[i]], i + 1)
  {
    var v := w[j + 1 := a[i]];
    forall p, q | 0 <= p < q < i + 1 && q < |v|
      ensures v[p] <= v[q]
    {
      if q <= j {
      } else if q == j + 1 {
        assert v[p] == a[p];
      } else if p < j + 1 {
        assert v[q] == a[q - 1];
      } else if p == j + 1 {
        assert v[q] == a[q - 1];
      } else {
        assert v[p] == a[p - 1] && v[q] == a[q - 1];
      }
    }
  }

  lemma InsertMultiset(a: seq<int>, i: int, j: int)
    requires -1 <= j < i < |a|
    ensures multiset(a[..j + 1] + [a[i]] + a[j + 1..i] + a[i + 1..]) == multiset(a)
    ensures (a[..j + 1] + [a[i]] + a[j + 1..i] + a[i + 1..])[..i + 1] == a[..j + 1] + [a[i]] + a[j + 1..i]
    ensures multiset(a[..j + 1] + [a[i]] + a[j + 1..i]) == multiset(a[..i + 1])
  {
    assert a == a[..j + 1] + a[j + 1..i] + [a[i]] + a[i + 1..];
    assert a[..i + 1] == a[..j + 1] + a[j + 1..i] + [a[i]];
  }

  /** No cell of the untouched part a[..j+1] is greater than the key. */
  lemma FrontNotAbove(a: seq<int>, i: int, j: int)
    requires -1 <= j < i < |a| && PrefixAscending(a, i)
    requires j >= 0 ==> a[j] <= a[i]
    ensures CountAbove(a[..j + 1], a[i]) == 0
  {
    var front := a[..j + 1];
    forall k | 0 <= k < |front|
      ensures front[k] <= a[i]
    {
      assert front[k] == a[k];
      if k < j {
        assert a[k] <= a[j];
      }
    }
    CountAboveExtremes(front, a[i]);
  }

  /** Every shifted cell a[j+1..i-1] is greater than the key. */
  lemma ShiftedAbove(a: seq<int>, i: int, j: int)
    requires -1 <= j < i < |a|
    requires forall k :: j + 1 <= k < i ==> a[k] > a[i]
    ensures CountAbove(a[j + 1..i], a[i]) == i - 1 - j
  {
    var moved := a[j + 1..i];
    forall k | 0 <= k < |moved|
      ensures moved[k] > a[i]
    {
      assert moved[k] == a[j + 1 + k];
    }
    CountAboveExtremes(moved, a[i]);
  }

  /** The shifted cells a[j+1..i-1] are exactly the prefix cells greater than the key. */
  lemma InsertCount(a: seq<int>, i: int, j: int)
    requires -1 <= j < i < |a| && PrefixAscending(a, i)
    requires j >= 0 ==> a[j] <= a[i]
    requires forall k :: j + 1 <= k < i ==> a[k] > a[i]
    ensures CountAbove(a[..i], a[i]) == i - 1 - j
  {
    CountSplit(a, j + 1, i, a[i]);
    FrontNotAbove(a, i, j);
    ShiftedAbove(a, i, j);
  }

  /** Counting over a[..i] is counting over a[..m] and then over a[m..i]. */
  lemma CountSplit(a: seq<int>, m: int, i: int, x: int)
    requires 0 <= m <= i <= |a|
    ensures CountAbove(a[..i], x) == CountAbove(a[..m], x) + CountAbove(a[m..i], x)
  {
    assert a[..i] == a[..m] + a[m..i];
    CountAboveAppend(a[..m], a[m..i], x);
  }

  /**
   * One trip of the shifting loop at cell j: the comparison step, and when
   * the cell is greater than the key, its shift one place right and the
   * shift step; otherwise the loop is done.
   */
  method Visit(a: seq<int>, i: nat, w: seq<int>, j: int, start: seq<Step>, steps: seq<Step>)
    returns (w': seq<int>, j': int, done: bool, steps': seq<Step>)
    requires Shifted(a, w, i, j) && j >= 0
    requires |start| <= |steps| && steps[..|start|] == start && SwapTrace(steps, multiset(a), false)
    ensures Shifted(a, w', i, j')
    ensures done ==> j' == j && a[j] <= a[i]
    ensures !done ==> j' == j - 1
    ensures |start| <= |steps'| && steps'[..|start|] == start && SwapTrace(steps', multiset(a), false)
    ensures Last(steps').metrics.swaps == Last(steps).metrics.swaps + (if done then 0 else 1)
    ensures Last(steps').metrics.comparisons == Last(steps).metrics.comparisons + 1
  {
    var m := Last(steps).metrics;
    var compare := Step(w, Plain.(comparing := Some([j, i]), current := Some(i)), SwapCounts(m.comparisons + 1, m.swaps));
    PushSwap(steps, compare, multiset(a), false);
    PushPrefix(steps, compare, start);
    steps' := steps + [compare];
    w', j', done := w, j, false;
    if w[j] > a[i] {
      w' := w[j + 1 := w[j]];
      var shift := Step(w', Plain.(swapping := Some([j, j + 1]), current := Some(i)), SwapCounts(m.comparisons + 1, m.swaps + 1));
      PushSwap(steps', shift, multiset(a), false);
      PushPrefix(steps', shift, start);
      steps' := steps' + [shift];
      j' := j - 1;
    } else {
      done := true;
    }
  }

  /**
   * The `while (j >= 0)` loop of round i followed by the write of the key:
   * each visited cell costs one comparison, each greater one a shift, and
   * the loop stops at the first cell not greater than the key.
   */
  method Shift(a: seq<int>, i: nat, steps: seq<Step>) returns (a': seq<int>, steps': seq<Step>)
    requires 0 < i < |a| && PrefixAscending(a, i)
    requires SwapTrace(steps, multiset(a), false)
    ensures |a'| == |a| && multiset(a') == multiset(a) && PrefixAscending(a', i + 1)
    ensures forall k :: i < k < |a| ==> a'[k] == a[k]
    ensures multiset(a'[..i + 1]) == multiset(a[..i + 1])
    ensures |steps| <= |steps'| && steps'[..|steps|] == steps && SwapTrace(steps', multiset(a), false)
    ensures Last(steps').metrics.swaps == Last(steps).metrics.swaps + CountAbove(a[..i], a[i])
    ensures Last(steps').metrics.swaps - Last(steps).metrics.swaps
         <= Last(steps').metrics.comparisons - Last(steps).metrics.comparisons
         <= Last(steps').metrics.swaps - Last(steps).metrics.swaps + 1
  {
    var key := a[i];
    var j := i - 1;
    var w := a;
    var done := false;
    steps' := steps;
    var c0, s0 := Last(steps).metrics.comparisons, Last(steps).metrics.swaps;
    while j >= 0 && !done
      invariant Shifted(a, w, i, j)
      invariant done ==> j >= 0 && a[j] <= key
      invariant |steps| <= |steps'| && steps'[..|steps|] == steps && SwapTrace(steps', multiset(a), false)
      invariant Last(steps').metrics.swaps == s0 + (i - 1 - j)
      invariant Last(steps').metrics.comparisons == c0 + (i - 1 - j) + (if done then 1 else 0)
      decreases j + 1, if done then 0 else 1
    {
      w, j, done, steps' := Visit(a, i, w, j, steps, steps');
    }
    Insert(a, w, i, j);
    a' := w[j + 1 := key];
  }

  /**
   * One round of the outer loop for i >= 1: the step announcing the key with
   * the sorted prefix [0..i-1], the shifting loop, and the step marking
   * [0..i] as sorted.
   */
  method Round(a: seq<int>, i: nat, steps: seq<Step>) returns (a': seq<int>, steps': seq<Step>)
    requires 0 < i < |a| && PrefixAscending(a, i)
    requires SwapTrace(steps, multiset(a), false) && multiset(Last(steps).values) == multiset(a)
    ensures |a'| == |a| && multiset(a') == multiset(a) && PrefixAscending(a', i + 1)
    ensures forall k :: i < k < |a| ==> a'[k] == a[k]
    ensures multiset(a'[..i + 1]) == multiset(a[..i + 1])
    ensures |steps| < |steps'| && steps'[..|steps|] == steps && SwapTrace(steps', multiset(a), false)
    ensures Last(steps').metrics.swaps == Last(steps).metrics.swaps + CountAbove(a[..i], a[i])
    ensures Last(steps').metrics.swaps - Last(steps).metrics.swaps
         <= Last(steps').metrics.comparisons - Last(steps).metrics.comparisons
         <= Last(steps').metrics.swaps - Last(steps).metrics.swaps + 1
    ensures Last(steps').values == a' && Last(steps').highlights == Plain.(sorted := Some(Indices(i + 1)))
  {
    var announce := Step(a, Plain.(current := Some(i), sorted := Some(Indices(i))), Last(steps).metrics);
    PushSwap(steps, announce, multiset(a), false);
    steps' := steps + [announce];
    var announced := steps';
    a', steps' := Shift(a, i, steps');
    assert steps'[..|steps|] == announced[..|steps|];
    var settled := Step(a', Plain.(sorted := Some(Indices(i + 1))), Last(steps').metrics);
    PushSwap(steps', settled, multiset(a), false);
    PushPrefix(steps', settled, steps);
    steps' := steps' + [settled];
  }

  /** The outer loop adds the inversions the key a[i] forms with the (permuted) prefix before it. */
  lemma InversionsStep(input: seq<int>, a: seq<int>, i: nat)
    requires i < |input| == |a| && a[i] == input[i]
    requires multiset(a[..i]) == multiset(input[..i])
    ensures Inversions(input[..i + 1]) == Inversions(input[..i]) + CountAbove(a[..i], a[i])
  {
    assert input[..i + 1][..i] == input[..i];
    CountAboveMultiset(a[..i], input[..i], a[i]);
  }

  /** After round i the prefix [..i+1] holds the same elements as the input's and the suffix is the input's. */
  lemma LayoutStep(input: seq<int>, a: seq<int>, b: seq<int>, i: nat)
    requires i < |input| == |a| == |b|
    requires multiset(a[..i]) == multiset(input[..i]) && a[i..] == input[i..]
    requires forall k :: i < k < |a| ==> b[k] == a[k]
    requires multiset(b[..i + 1]) == multiset(a[..i + 1])
    ensures multiset(b[..i + 1]) == multiset(input[..i + 1]) && b[i + 1..] == input[i + 1..]
  {
    assert a[..i + 1] == a[..i] + [a[i]];
    assert input[..i + 1] == input[..i] + [input[i]];
    assert a[i] == a[i..][0];
    assert b[i + 1..] == a[i + 1..] == a[i..][1..];
  }

  /** One trip of the outer loop, carrying the layout and inversion facts across the round. */
  method Advance(input: seq<int>, a: seq<int>, i: nat, steps: seq<Step>) returns (b: seq<int>, steps': seq<Step>)
    requires 0 < i < |input| == |a| && PrefixAscending(a, i)
    requires multiset(a) == multiset(input) && multiset(a[..i]) == multiset(input[..i]) && a[i..] == input[i..]
    requires SwapTrace(steps, multiset(input), false) && multiset(Last(steps).values) == multiset(input)
    requires Last(steps).metrics.swaps == Inversions(input[..i])
    ensures |b| == |a| && multiset(b) == multiset(input) && PrefixAscending(b, i + 1)
    ensures multiset(b[..i + 1]) == multiset(input[..i + 1]) && b[i + 1..] == input[i + 1..]
    ensures |steps| < |steps'| && steps'[..|steps|] == steps && SwapTrace(steps', multiset(input), false)
    ensures multiset(Last(steps').values) == multiset(input)
    ensures Last(steps').metrics.swaps == Inversions(input[..i + 1])
    ensures Last(steps').metrics.swaps - Last(steps).metrics.swaps
         <= Last(steps').metrics.comparisons - Last(steps).metrics.comparisons
         <= Last(steps').metrics.swaps - Last(steps).metrics.swaps + 1
  {
    assert a[i] == a[i..][0] == input[i];
    InversionsStep(input, a, i);
    b, steps' := Round(a, i, steps);
    LayoutStep(input, a, b, i);
  }

  /**
   * `simulateInsertionSort`: the initial copy highlighted as sorted [0] (even
   * when empty), rounds for i = 1..n-1, and the final all-sorted step. The
   * shifts counted as swaps are exactly the inversions of the input.
   */
  method Simulate(input: seq<int>) returns (steps: seq<Step>)
    ensures |steps| >= 2
    ensures steps[0] == Step(input, Plain.(sorted := Some([0])), SwapCounts(0, 0))
    ensures Ascending(Last(steps).values) && multiset(Last(steps).values) == multiset(input)
    ensures Last(steps).highlights == Plain.(sorted := Some(Indices(|input|)))
    ensures Last(steps).metrics.SwapCounts? && Last(steps).metrics.swaps == Inversions(input)
    ensures Last(steps).metrics.swaps <= Last(steps).metrics.comparisons
    ensures |input| > 0 ==> Last(steps).metrics.comparisons <= Last(steps).metrics.swaps + (|input| - 1)
    ensures Monotone(steps) && CheckpointPerm(steps, multiset(input))
  {
    var n := |input|;
    var a := input;
    var first := Step(input, Plain.(sorted := Some([0])), SwapCounts(0, 0));
    steps := [first];
    if n == 0 {
      var final := Step(a, Plain.(sorted := Some(Indices(0))), SwapCounts(0, 0));
      PushSwap(steps, final, multiset(input), false);
      steps := steps + [final];
      ChainMeans(steps, multiset(input), false);
      return;
    }
    var i := 1;
    assert input[..1] == [input[0]];
    while i < n
      invariant 1 <= i <= n
      invariant |a| == n && multiset(a) == multiset(input) && PrefixAscending(a, i)
      invariant multiset(a[..i]) == multiset(input[..i]) && a[i..] == input[i..]
      invariant |steps| > 0 && steps[0] == first && SwapTrace(steps, multiset(input), false)
      invariant multiset(Last(steps).values) == multiset(input)
      invariant Last(steps).metrics.swaps == Inversions(input[..i])
      invariant Last(steps).metrics.swaps <= Last(steps).metrics.comparisons <= Last(steps).metrics.swaps + (i - 1)
    {
      var before := steps;
      a, steps := Advance(input, a, i, steps);
      assert steps[0] == steps[..|before|][0];
      i := i + 1;
    }
    assert input[..n] == input;
    var final := Step(a, Plain.(sorted := Some(Indices(n))), Last(steps).metrics);
    PushSwap(steps, final, multiset(input), false);
    steps := steps + [final];
    ChainMeans(steps, multiset(input), false);
  }
}

=== FILE: merge.dfy ===
/**
 * The merge-sort simulator: top-down splitting at floor((l+r)/2) and a
 * merge that copies both halves out and writes them back in order. While a
 * merge writes, the snapshot holds some cells twice and misses others, so
 * only the steps outside a merge are permutations of the input.
 */
module MergeSort {
  import opened Wrappers
  import opened Trace

  /**
   * The reference merge of two sequences: repeatedly take the smaller head,
   * the left one on ties.
   */
  function MergeSeq(x: seq<int>, y: seq<int>): (r: seq<int>)
    decreases |x| + |y|
  {
    if |x| == 0 then y
    else if |y| == 0 then x
    else if x[0] <= y[0] then [x[0]] + MergeSeq(x[1..], y)
    else [y[0]] + MergeSeq(x, y[1..])
  }

  /** The merge holds exactly the elements of both inputs. */
  lemma {:induction false} MergeSeqPerm(x: seq<int>, y: seq<int>)
    ensures |MergeSeq(x, y)| == |x| + |y|
    ensures multiset(MergeSeq(x, y)) == multiset(x) + multiset(y)
    decreases |x| + |y|
  {
    if |x| > 0 && |y| > 0 {
      if x[0] <= y[0] {
        MergeSeqPerm(x[1..], y);
        assert x == [x[0]] + x[1..];
      } else {
        MergeSeqPerm(x, y[1..]);
        assert y == [y[0]] + y[1..];
      }
    }
  }

  /** A lower bound on both inputs is a lower bound on their merge. */
  lemma MergeSeqAbove(x: seq<int>, y: seq<int>, v: int)
    requires forall k :: 0 <= k < |x| ==> v <= x[k]
    requires forall k :: 0 <= k < |y| ==> v <= y[k]
    ensures forall k :: 0 <= k < |MergeSeq(x, y)| ==> v <= MergeSeq(x, y)[k]
  {
    MergeSeqPerm(x, y);
    forall k | 0 <= k < |MergeSeq(x, y)|
      ensures v <= MergeSeq(x, y)[k]
    {
      var e := MergeSeq(x, y)[k];
      assert e in multiset(MergeSeq(x, y));
      assert e in multiset(x) || e in multiset(y);
      if e in multiset(x) {
        var p :| 0 <= p < |x| && x[p] == e;
      } else {
        var p :| 0 <= p < |y| && y[p] == e;
      }
    }
  }

  /** Merging two ascending sequences gives an ascending sequence. */
  lemma {:induction false} MergeSeqSorted(x: seq<int>, y: seq<int>)
    requires Ascending(x) && Ascending(y)
    ensures Ascending(MergeSeq(x, y))
    decreases |x| + |y|
  {
    if |x| > 0 && |y| > 0 {
      if x[0] <= y[0] {
        assert Ascending(x[1..]);
        MergeSeqSorted(x[1..], y);
        MergeSeqAbove(x[1..], y, x[0]);
        assert MergeSeq(x, y) == [x[0]] + MergeSeq(x[1..], y);
      } else {
        assert Ascending(y[1..]);
        MergeSeqSorted(x, y[1..]);
        MergeSeqAbove(x, y[1..], y[0]);
        assert MergeSeq(x, y) == [y[0]] + MergeSeq(x, y[1..]);
      }
    }
  }

  /** The consecutive indices lo, lo+1, ..., hi-1. */
  function Span(lo: int, hi: int): (r: seq<int>)
    ensures |r| == if hi <= lo then 0 else hi - lo
    decreases hi - lo
  {
    if hi <= lo then [] else Span(lo, hi - 1) + [hi - 1]
  }

  lemma {:induction false} SpanAt(lo: int, hi: int)
    ensures forall k :: 0 <= k < hi - lo ==> Span(lo, hi)[k] == lo + k
    decreases hi - lo
  {
    if lo < hi {
      SpanAt(lo, hi - 1);
    }
  }

  /** The `placed` positions of a run of steps, in order. */
  function Placements(steps: seq<Step>): seq<int> {
    if |steps| == 0 then []
    else Placements(steps[..|steps| - 1]) + (if Last(steps).highlights.placed.Some? then [Last(steps).highlights.placed.value] else [])
  }

  lemma PlacementsPush(steps: seq<Step>, t: Step, from: nat)
    requires from <= |steps|
    ensures Placements((steps + [t])[from..]) == Placements(steps[from..]) + (if t.highlights.placed.Some? then [t.highlights.placed.value] else [])
  {
    assert (steps + [t])[from..] == steps[from..] + [t];
    assert (steps[from..] + [t])[..|steps[from..]|] == steps[from..];
  }

  /** The trace facts kept while merge sort runs: checkpoint permutations and merge counters. */
  predicate MergeTrace(steps: seq<Step>, m: multiset<int>) {
    Chain(steps, m, false) && Last(steps).metrics.MergeCounts?
  }

  lemma PushMerge(steps: seq<Step>, s: Step, m: multiset<int>)
    requires MergeTrace(steps, m) && MetricsLe(Last(steps).metrics, s.metrics)
    requires Checkpoint(s.highlights) ==> multiset(s.values) == m
    ensures MergeTrace(steps + [s], m) && Last(steps + [s]) == s
    ensures |steps| < |steps + [s]| && (steps + [s])[..|steps|] == steps
  {
    Extend(steps, s, m, false);
  }

  /**
   * The state of `merge` on [l, r] with the halves copied out as `left` and
   * `right`, after taking i cells of the left and j of the right:
   * [l, l+i+j) holds the first i+j cells of the merge, the rest of the merge
   * is that of the untaken cells, and nothing outside [l, r] has changed.
   */
  predicate Merging(a: seq<int>, w: seq<int>, left: seq<int>, right: seq<int>, l: int, i: int, j: int) {
    && 0 <= l && l + |left| + |right| <= |a| && 0 <= i <= |left| && 0 <= j <= |right|
    && Outside(w, a, l, l + |left| + |right| - 1)
    && w[l..l + i + j] + MergeSeq(left[i..], right[j..]) == MergeSeq(left, right)
  }

  /** Writing left[i] at l+i+j, when it is the smaller head or the right half is used up. */
  lemma TakeLeft(a: seq<int>, w: seq<int>, left: seq<int>, right: seq<int>, l: int, i: int, j: int)
    requires Merging(a, w, left, right, l, i, j) && i < |left|
    requires j == |right| || left[i] <= right[j]
    ensures Merging(a, w[l + i + j := left[i]], left, right, l, i + 1, j)
  {
    var k := l + i + j;
    assert left[i..] == [left[i]] + left[i + 1..];
    assert MergeSeq(left[i..], right[j..]) == [left[i]] + MergeSeq(left[i + 1..], right[j..]);
    assert w[k := left[i]][l..k + 1] == w[l..k] + [left[i]];
  }

  /** Writing right[j] at l+i+j, when it is the smaller head or the left half is used up. */
  lemma TakeRight(a: seq<int>, w: seq<int>, left: seq<int>, right: seq<int>, l: int, i: int, j: int)
    requires Merging(a, w, left, right, l, i, j) && j < |right|
    requires i == |left| || left[i] > right[j]
    ensures Merging(a, w[l + i + j := right[j]], left, right, l, i, j + 1)
  {
    var k := l + i + j;
    assert right[j..] == [right[j]] + right[j + 1..];
    assert MergeSeq(left[i..], right[j..]) == [right[j]] + MergeSeq(left[i..], right[j + 1..]);
    assert w[k := right[j]][l..k + 1] == w[l..k] + [right[j]];
  }

  /** The run of steps emitted by one merge so far: each carries `merging [l, m, r]` and they place l, l+1, ... in order. */
  predicate MergeRun(run: seq<Step>, l: int, m: int, r: int, placed: int) {
    && |run| > 0
    && (forall t :: 0 <= t < |run| ==> run[t].highlights.merging == Some([l, m, r]))
    && Placements(run) == Span(l, placed)
  }

  lemma MergeRunPush(steps: seq<Step>, t: Step, from: nat, l: int, m: int, r: int, placed: int)
    requires from < |steps| && MergeRun(steps[from..], l, m, r, placed)
    requires t.highlights.merging == Some([l, m, r])
    requires t.highlights.placed.Some? ==> l <= placed && t.highlights.placed.value == placed
    ensures MergeRun((steps + [t])[from..], l, m, r, if t.highlights.placed.Some? then placed + 1 else placed)
  {
    PlacementsPush(steps, t, from);
    assert (steps + [t])[from..] == steps[from..] + [t];
  }

  /** The facts about the steps of one merge kept by its loops. */
  predicate Emitted(steps: seq<Step>, before: seq<Step>, a: seq<int>, from: nat, l: int, m: int, r: int, placed: int) {
    && |before| <= |steps| && steps[..|before|] == before && MergeTrace(steps, multiset(a))
    && from < |steps| && MergeRun(steps[from..], l, m, r, placed)
  }

  /** Appending a step of the merge (placing position `placed` when it carries `placed`). */
  lemma Emit(steps: seq<Step>, before: seq<Step>, a: seq<int>, from: nat, l: int, m: int, r: int, placed: int, t: Step)
    requires Emitted(steps, before, a, from, l, m, r, placed) && l <= placed
    requires MetricsLe(Last(steps).metrics, t.metrics)
    requires t.highlights.merging == Some([l, m, r])
    requires t.highlights.placed.Some? ==> t.highlights.placed.value == placed
    ensures Emitted(steps + [t], before, a, from, l, m, r, if t.highlights.placed.Some? then placed + 1 else placed)
    ensures Last(steps + [t]) == t
  {
    PushMerge(steps, t, multiset(a));
    PushPrefix(steps, t, before);
    MergeRunPush(steps, t, from, l, m, r, placed);
  }

  /**
   * One trip of the `while (i < n1 && j < n2)` loop: the comparing step, the
   * smaller head (the left one on ties) written at k = l+i+j, and the placed step.
   */
  method Interleave1(a: seq<int>, w: seq<int>, left: seq<int>, right: seq<int>, l: int, m: int, r: int, i: int, j: int,
                     steps: seq<Step>, before: seq<Step>, from: nat)
    returns (w': seq<int>, i': int, j': int, steps': seq<Step>)
    requires Merging(a, w, left, right, l, i, j) && i < |left| && j < |right|
    requires Emitted(steps, before, a, from, l, m, r, l + i + j)
    ensures Merging(a, w', left, right, l, i', j') && i' + j' == i + j + 1
    ensures Emitted(steps', before, a, from, l, m, r, l + i' + j')
    ensures Last(steps').metrics == Last(steps).metrics.(comparisons := Last(steps).metrics.comparisons + 1)
  {
    var c := Last(steps).metrics;
    var k := l + i + j;
    var compare := Step(w, Plain.(comparing := Some([l + i, m + 1 + j]), merging := Some([l, m, r])), MergeCounts(c.comparisons + 1, c.merges));
    Emit(steps, before, a, from, l, m, r, k, compare);
    steps' := steps + [compare];
    if left[i] <= right[j] {
      TakeLeft(a, w, left, right, l, i, j);
      w', i', j' := w[k := left[i]], i + 1, j;
    } else {
      TakeRight(a, w, left, right, l, i, j);
      w', i', j' := w[k := right[j]], i, j + 1;
    }
    var place := Step(w', Plain.(merging := Some([l, m, r]), placed := Some(k)), MergeCounts(c.comparisons + 1, c.merges));
    Emit(steps', before, a, from, l, m, r, k, place);
    steps' := steps' + [place];
  }

  /**
   * One trip of a copy loop: the next remaining cell of the left half (or,
   * once it is used up, of the right half) written at k = l+i+j, and its placed step.
   */
  method Copy1(a: seq<int>, w: seq<int>, left: seq<int>, right: seq<int>, l: int, m: int, r: int, i: int, j: int,
               steps: seq<Step>, before: seq<Step>, from: nat)
    returns (w': seq<int>, i': int, j': int, steps': seq<Step>)
    requires Merging(a, w, left, right, l, i, j) && (i == |left| || j == |right|) && i + j < |left| + |right|
    requires Emitted(steps, before, a, from, l, m, r, l + i + j)
    ensures Merging(a, w', left, right, l, i', j') && (i' == |left| || j' == |right|) && i' + j' == i + j + 1
    ensures i' == (if i < |left| then i + 1 else i)
    ensures Emitted(steps', before, a, from, l, m, r, l + i' + j')
    ensures Last(steps').metrics == Last(steps).metrics
  {
    var k := l + i + j;
    if i < |left| {
      TakeLeft(a, w, left, right, l, i, j);
      w', i', j' := w[k := left[i]], i + 1, j;
    } else {
      TakeRight(a, w, left, right, l, i, j);
      w', i', j' := w[k := right[j]], i, j + 1;
    }
    var place := Step(w', Plain.(merging := Some([l, m, r]), placed := Some(k)), Last(steps).metrics);
    Emit(steps, before, a, from, l, m, r, k, place);
    steps' := steps + [place];
  }

  /** The `while (i < n1 && j < n2)` loop: one comparison per trip, so at most r-l in all. */
  method Interleave(a: seq<int>, left: seq<int>, right: seq<int>, l: int, m: int, r: int, steps: seq<Step>, from: nat)
    returns (w: seq<int>, i: int, j: int, steps': seq<Step>)
    requires 0 < |left| && 0 < |right| && r == l + |left| + |right| - 1 && Merging(a, a, left, right, l, 0, 0)
    requires Emitted(steps, steps, a, from, l, m, r, l)
    ensures Merging(a, w, left, right, l, i, j) && (i == |left| || j == |right|)
    ensures Emitted(steps', steps, a, from, l, m, r, l + i + j)
    ensures Last(steps').metrics.comparisons <= Last(steps).metrics.comparisons + (r - l)
    ensures Last(steps').metrics.merges == Last(steps).metrics.merges
  {
    i, j := 0, 0;
    w, steps' := a, steps;
    while i < |left| && j < |right|
      invariant Merging(a, w, left, right, l, i, j) && !(i == |left| && j == |right|)
      invariant Emitted(steps', steps, a, from, l, m, r, l + i + j)
      invariant Last(steps').metrics.comparisons == Last(steps).metrics.comparisons + i + j
      invariant Last(steps').metrics.merges == Last(steps).metrics.merges
      decreases |left| + |right| - i - j
    {
      w, i, j, steps' := Interleave1(a, w, left, right, l, m, r, i, j, steps', steps, from);
    }
  }

  /** The two copy loops: the rest of the left half, then the rest of the right half. */
  method Drain(a: seq<int>, w: seq<int>, left: seq<int>, right: seq<int>, l: int, m: int, r: int, i: int, j: int,
               steps: seq<Step>, before: seq<Step>, from: nat)
    returns (w': seq<int>, steps': seq<Step>)
    requires r == l + |left| + |right| - 1
    requires Merging(a, w, left, right, l, i, j) && (i == |left| || j == |right|)
    requires Emitted(steps, before, a, from, l, m, r, l + i + j)
    ensures Merging(a, w', left, right, l, |left|, |right|)
    ensures Emitted(steps', before, a, from, l, m, r, r + 1)
    ensures Last(steps').metrics == Last(steps).metrics
  {
    var i', j' := i, j;
    w', steps' := w, steps;
    while i' < |left|
      invariant Merging(a, w', left, right, l, i', j') && (i' == |left| || j' == |right|)
      invariant Emitted(steps', before, a, from, l, m, r, l + i' + j')
      invariant Last(steps').metrics == Last(steps).metrics
      decreases |left| - i'
    {
      w', i', j', steps' := Copy1(a, w', left, right, l, m, r, i', j', steps', before, from);
    }
    while j' < |right|
      invariant Merging(a, w', left, right, l, i', j') && i' == |left|
      invariant Emitted(steps', before, a, from, l, m, r, l + i' + j')
      invariant Last(steps').metrics == Last(steps).metrics
      decreases |right| - j'
    {
      w', i', j', steps' := Copy1(a, w', left, right, l, m, r, i', j', steps', before, from);
    }
  }

  /** When both halves are used up, [l, r] holds their merge and the whole array is a permutation of the old one. */
  lemma Merged(a: seq<int>, w: seq<int>, l: int, m: int, r: int)
    requires 0 <= l <= m < r < |a|
    requires Merging(a, w, a[l..m + 1], a[m + 1..r + 1], l, m - l + 1, r - m)
    ensures w[l..r + 1] == MergeSeq(a[l..m + 1], a[m + 1..r + 1])
    ensures multiset(w) == multiset(a)
  {
    assert a[l..m + 1][m - l + 1..] == [] && a[m + 1..r + 1][r - m..] == [];
    MergeSeqPerm(a[l..m + 1], a[m + 1..r + 1]);
    assert a[l..r + 1] == a[l..m + 1] + a[m + 1..r + 1];
    RangePerm(w, a, l, r + 1);
  }

  /** The opening state of a merge: nothing taken, one step emitted, nothing placed. */
  lemma Opened(a: seq<int>, l: int, m: int, r: int, steps: seq<Step>, start: Step)
    requires 0 <= l <= m < r < |a| && MergeTrace(steps, multiset(a))
    requires start == Step(a, Plain.(merging := Some([l, m, r])), Last(steps).metrics)
    ensures Merging(a, a, a[l..m + 1], a[m + 1..r + 1], l, 0, 0)
    ensures Emitted(steps + [start], steps + [start], a, |steps|, l, m, r, l)
  {
    PushMerge(steps, start, multiset(a));
    assert (steps + [start])[|steps|..] == [start];
    assert [start][..0] == [];
    assert a[l..l] == [] && a[l..m + 1][0..] == a[l..m + 1] && a[m + 1..r + 1][0..] == a[m + 1..r + 1];
  }

  /** The merged step closes a run of merging steps whose placements are exactly l..r. */
  lemma Closed(steps: seq<Step>, before: seq<Step>, a: seq<int>, l: int, m: int, r: int, done: Step)
    requires Emitted(steps, before, a, |before|, l, m, r, r + 1)
    requires MetricsLe(Last(steps).metrics, done.metrics)
    requires Checkpoint(done.highlights) ==> multiset(done.values) == multiset(a)
    ensures MergeTrace(steps + [done], multiset(a)) && |before| < |steps + [done]| && (steps + [done])[..|before|] == before
    ensures forall t :: |before| <= t < |steps + [done]| - 1 ==> (steps + [done])[t].highlights.merging == Some([l, m, r])
    ensures Placements((steps + [done])[|before|..|steps + [done]| - 1]) == Span(l, r + 1)
  {
    PushMerge(steps, done, multiset(a));
    PushPrefix(steps, done, before);
    var run := steps[|before|..];
    assert (steps + [done])[|before|..|steps + [done]| - 1] == run;
    forall t | |before| <= t < |steps + [done]| - 1
      ensures (steps + [done])[t].highlights.merging == Some([l, m, r])
    {
      assert (steps + [done])[t] == run[t - |before|];
    }
  }

  /** The comparison loop and the two copy loops, leaving [l, r] holding the merge of the halves. */
  method Combine(a: seq<int>, left: seq<int>, right: seq<int>, l: int, m: int, r: int, begun: seq<Step>, from: nat)
    returns (w: seq<int>, steps': seq<Step>)
    requires 0 < |left| && 0 < |right| && r == l + |left| + |right| - 1
    requires Merging(a, a, left, right, l, 0, 0)
    requires Emitted(begun, begun, a, from, l, m, r, l)
    ensures Emitted(steps', begun, a, from, l, m, r, r + 1)
    ensures Merging(a, w, left, right, l, |left|, |right|)
    ensures Last(steps').metrics.comparisons <= Last(begun).metrics.comparisons + (r - l)
    ensures Last(steps').metrics.merges == Last(begun).metrics.merges
  {
    var i, j;
    w, i, j, steps' := Interleave(a, left, right, l, m, r, begun, from);
    w, steps' := Drain(a, w, left, right, l, m, r, i, j, steps', begun, from);
  }

  /**
   * `merge(l, m, r)`: the merging step, the loops, and the merged step.
   * Exactly r-l+1 placed steps at l, ..., r in order, at most r-l
   * comparisons, and one more merge.
   */
  method Merge(a: seq<int>, l: int, m: int, r: int, steps: seq<Step>) returns (a': seq<int>, steps': seq<Step>)
    requires 0 <= l <= m < r < |a|
    requires MergeTrace(steps, multiset(a))
    ensures Outside(a', a, l, r) && multiset(a') == multiset(a)
    ensures a'[l..r + 1] == MergeSeq(a[l..m + 1], a[m + 1..r + 1])
    ensures |steps| + 2 <= |steps'| && steps'[..|steps|] == steps && MergeTrace(steps', multiset(a))
    ensures steps'[|steps|] == Step(a, Plain.(merging := Some([l, m, r])), Last(steps).metrics)
    ensures forall t :: |steps| <= t < |steps'| - 1 ==> steps'[t].highlights.merging == Some([l, m, r])
    ensures Placements(steps'[|steps|..|steps'| - 1]) == Span(l, r + 1)
    ensures Last(steps') == Step(a', Plain.(merged := Some([l, r])), Last(steps').metrics)
    ensures Last(steps').metrics.comparisons <= Last(steps).metrics.comparisons + (r - l)
    ensures Last(steps').metrics.merges == Last(steps).metrics.merges + 1
  {
    var left, right := a[l..m + 1], a[m + 1..r + 1];
    var start := Step(a, Plain.(merging := Some([l, m, r])), Last(steps).metrics);
    Opened(a, l, m, r, steps, start);
    var begun := steps + [start];
    var w;
    w, steps' := Combine(a, a[l..m + 1], a[m + 1..r + 1], l, m, r, begun, |steps|);
    assert steps'[..|steps|] == begun[..|steps|];
    assert steps'[|steps|] == begun[|steps|];
    Merged(a, w, l, m, r);
    a' := w;
    var c := Last(steps').metrics;
    var done := Step(a', Plain.(merged := Some([l, r])), MergeCounts(c.comparisons, c.merges + 1));
    Closed(steps', steps, a, l, m, r, done);
    steps' := steps' + [done];
  }

  /** An ascending inclusive range, read as a sequence, is ascending. */
  lemma SortedSlice(a: seq<int>, lo: int, hi: int)
    requires 0 <= lo <= hi + 1 <= |a| && SortedRange(a, lo, hi)
    ensures Ascending(a[lo..hi + 1])
  {
    var s := a[lo..hi + 1];
    forall p, q | 0 <= p < q < |s|
      ensures s[p] <= s[q]
    {
      assert s[p] == a[lo + p] && s[q] == a[lo + q];
    }
  }

  /** Work on cells after m leaves a sorted range ending at m sorted. */
  lemma StillSorted(b: seq<int>, c: seq<int>, l: int, m: int)
    requires 0 <= l <= m < |b| && Outside(c, b, m + 1, |b|) && SortedRange(b, l, m)
    ensures SortedRange(c, l, m)
  {
    forall p, q | l <= p < q <= m
      ensures c[p] <= c[q]
    {
      assert c[p] == b[p] && c[q] == b[q];
    }
  }

  /** The merge of the two sorted halves leaves [l, r] sorted. */
  lemma HalvesMerged(b: seq<int>, c: seq<int>, l: int, m: int, r: int)
    requires 0 <= l <= m < r < |b| == |c|
    requires SortedRange(b, l, m) && SortedRange(b, m + 1, r)
    requires c[l..r + 1] == MergeSeq(b[l..m + 1], b[m + 1..r + 1])
    ensures SortedRange(c, l, r)
  {
    SortedSlice(b, l, m);
    SortedSlice(b, m + 1, r);
    MergeSeqSorted(b[l..m + 1], b[m + 1..r + 1]);
    forall p, q | l <= p < q <= r
      ensures c[p] <= c[q]
    {
      assert c[p] == c[l..r + 1][p - l] && c[q] == c[l..r + 1][q - l];
    }
  }

  /**
   * `mergeSort(l, r)`: a range of two or more cells is announced with its
   * split point, both halves are sorted, and they are merged. A range of
   * r-l+1 >= 1 cells costs exactly r-l merges.
   */
  method SortRange(a: seq<int>, l: int, r: int, steps: seq<Step>) returns (a': seq<int>, steps': seq<Step>)
    requires 0 <= l <= r + 1 <= |a|
    requires MergeTrace(steps, multiset(a))
    ensures Outside(a', a, l, r) && multiset(a') == multiset(a) && SortedRange(a', l, r)
    ensures |steps| <= |steps'| && steps'[..|steps|] == steps && MergeTrace(steps', multiset(a))
    ensures l < r ==> Last(steps').values == a'
    ensures l >= r ==> a' == a && steps' == steps
    ensures Last(steps').metrics.merges == Last(steps).metrics.merges + (if l <= r then r - l else 0)
    decreases r - l + 1
  {
    if l < r {
      var m := (l + r) / 2;
      var divide := Step(a, Plain.(dividing := Some([l, m, r])), Last(steps).metrics);
      PushMerge(steps, divide, multiset(a));
      steps' := steps + [divide];
      var b, c, before;
      before := steps';
      b, steps' := SortRange(a, l, m, steps');
      assert steps'[..|steps|] == before[..|steps|];
      before := steps';
      c, steps' := SortRange(b, m + 1, r, steps');
      assert steps'[..|steps|] == before[..|steps|];
      StillSorted(b, c, l, m);
      before := steps';
      a', steps' := Merge(c, l, m, r, steps');
      assert steps'[..|steps|] == before[..|steps|];
      HalvesMerged(c, a', l, m, r);
    } else {
      a', steps' := a, steps;
    }
  }

  /**
   * `simulateMergeSort`: the initial copy, `mergeSort(0, n-1)` and the final
   * all-sorted step; n-1 merges in total for a non-empty array.
   */
  method Simulate(input: seq<int>) returns (steps: seq<Step>)
    ensures |steps| >= 2
    ensures steps[0] == Step(input, Plain, MergeCounts(0, 0))
    ensures Ascending(Last(steps).values) && multiset(Last(steps).values) == multiset(input)
    ensures Last(steps).highlights == Plain.(sorted := Some(Indices(|input|)))
    ensures Last(steps).metrics.MergeCounts?
    ensures Last(steps).metrics.merges == if |input| == 0 then 0 else |input| - 1
    ensures Monotone(steps) && CheckpointPerm(steps, multiset(input))
  {
    var first := Step(input, Plain, MergeCounts(0, 0));
    var a;
    a, steps := SortRange(input, 0, |input| - 1, [first]);
    assert steps[0] == first;
    var final := Step(a, Plain.(sorted := Some(Indices(|input|))), Last(steps).metrics);
    PushMerge(steps, final, multiset(input));
    steps := steps + [final];
    ChainMeans(steps, multiset(input), false);
    assert Ascending(a) by {
      forall p, q | 0 <= p < q < |a|
        ensures a[p] <= a[q]
      {
      }
    }
  }
}

=== FILE: playback.dfy ===
/**
 * The playback controller of the visualizer: the state the application keeps
 * about the installed trace (`sortingSteps`, `currentStep`, `isPlaying`,
 * `animationSpeed`) together with the generator settings the controls write,
 * and the transitions `play`, `pause`, `stepBack`, `stepForward`, `reset` and
 * one tick of `animate`. Redrawing is not modelled; a tick that schedules its
 * successor reports the delay it asks `setTimeout` for.
 */
module Playback {
  import opened Wrappers
  import opened Trace

  /**
   * The fields of the application object the core reads and writes:
   * the trace, the index of the displayed step, whether auto-advance is on,
   * the speed setting, and the generator's size, array type and algorithm id.
   */
  datatype App = App(
    steps: seq<Step>,
    current: int,
    playing: bool,
    speed: int,
    size: nat,
    kind: string,
    algorithm: string)

  /** The state the constructor sets up. */
  const Initial := App([], 0, false, 5, 15, "random", "bubble_sort")

  /** The displayed index is a step of the trace, or 0 when there is no trace: 0 <= currentStep <= max(0, length-1). */
  predicate Valid(app: App) {
    0 <= app.current && (app.current < |app.steps| || app.current == 0)
  }

  /**
   * The freshly constructed application is consistent and has nothing to
   * play: before a trace exists, play, both step buttons and reset leave it
   * as it is, on the default speed 5 and size 15 with bubble sort selected.
   */
  lemma InitialIsIdle()
    ensures Valid(Initial) && Initial.steps == [] && Initial.current == 0 && !Initial.playing
    ensures Initial.speed == 5 && Initial.size == 15 && Initial.kind == "random" && Initial.algorithm == "bubble_sort"
    ensures Play(Initial) == Tick(Initial, None)
    ensures StepForward(Initial) == Initial && StepBack(Initial) == Initial && Reset(Initial) == Initial
  {
  }

  /** The result of one `animate` call: the new state and, when it scheduled another call, the delay it asked for. */
  datatype Tick = Tick(app: App, next: Option<int>)

  /** The auto-advance delay in milliseconds: max(50, 1100 - 100 * speed). */
  function TickDelay(speed: int): (d: int)
    ensures d >= 50
    ensures speed <= 10 ==> d == 1100 - 100 * speed
    ensures speed >= 11 ==> d == 50
  {
    if 1100 - speed * 100 > 50 then 1100 - speed * 100 else 50
  }

  /** A faster setting never waits longer. */
  lemma TickDelayMonotone(slow: int, fast: int)
    requires slow <= fast
    ensures TickDelay(fast) <= TickDelay(slow)
  {
  }

  /**
   * One `animate` call: when playing and not yet at the last step it moves
   * to the next step and schedules the next call; otherwise it switches
   * playback off and moves nowhere.
   */
  function Animate(app: App): (t: Tick)
    ensures t.next.Some? <==> app.playing && app.current < |app.steps| - 1
    ensures t.next.Some? ==> t.app == app.(current := app.current + 1) && t.next.value == TickDelay(app.speed)
    ensures t.next.None? ==> t.app == app.(playing := false)
    ensures Valid(app) ==> Valid(t.app)
  {
    if !app.playing || app.current >= |app.steps| - 1 then Tick(app.(playing := false), None)
    else Tick(app.(current := app.current + 1), Some(TickDelay(app.speed)))
  }

  /**
   * `play`: nothing happens without a trace; otherwise playback is switched
   * on and the first tick runs at once, so the display advances immediately
   * unless it already shows the last step, in which case playback stops again.
   */
  function Play(app: App): (t: Tick)
    ensures |app.steps| == 0 ==> t == Tick(app, None)
    ensures 0 < |app.steps| && app.current < |app.steps| - 1 ==>
      t == Tick(app.(current := app.current + 1, playing := true), Some(TickDelay(app.speed)))
    ensures 0 < |app.steps| && app.current >= |app.steps| - 1 ==> t == Tick(app.(playing := false), None)
    ensures Valid(app) ==> Valid(t.app)
  {
    if |app.steps| == 0 then Tick(app, None) else Animate(app.(playing := true))
  }

  /** `pause`: playback is off; a pending tick will find it so and do nothing else. */
  function Pause(app: App): (r: App)
    ensures r == app.(playing := false)
    ensures !r.playing && r.steps == app.steps && r.current == app.current
    ensures !Animate(r).app.playing && Animate(r).app.current == app.current && Animate(r).next.None?
  {
    app.(playing := false)
  }

  /** `stepBack`: one step earlier, or nothing at the first step. */
  function StepBack(app: App): (r: App)
    ensures app.current > 0 ==> r == app.(current := app.current - 1)
    ensures app.current <= 0 ==> r == app
    ensures Valid(app) ==> Valid(r)
  {
    if app.current > 0 then app.(current := app.current - 1) else app
  }

  /** `stepForward`: one step later, or nothing at the last step. */
  function StepForward(app: App): (r: App)
    ensures app.current < |app.steps| - 1 ==> r == app.(current := app.current + 1)
    ensures app.current >= |app.steps| - 1 ==> r == app
    ensures Valid(app) ==> Valid(r)
  {
    if app.current < |app.steps| - 1 then app.(current := app.current + 1) else app
  }

  /** Inside the trace, a step forward followed by a step back returns to the same state, and the other way round. */
  lemma ForwardBackInverse(app: App)
    requires Valid(app)
    ensures app.current < |app.steps| - 1 ==> StepBack(StepForward(app)) == app
    ensures app.current > 0 ==> StepForward(StepBack(app)) == app
  {
  }

  /** `reset`: back to the first step with playback off; the trace is kept. */
  function Reset(app: App): (r: App)
    ensures r.current == 0 && !r.playing && Valid(r)
    ensures r.steps == app.steps && r.speed == app.speed && r.size == app.size
    ensures r.kind == app.kind && r.algorithm == app.algorithm
  {
    app.(current := 0, playing := false)
  }

  /**
   * Following the chain of ticks: `Run(app, fuel)` is the state after the
   * scheduled `animate` calls have run, at most `fuel` of them, together
   * with the number of steps shown on the way.
   */
  function Run(app: App, fuel: nat): (r: (App, nat))
    ensures r.1 <= fuel
    ensures r.0.steps == app.steps && r.0.current == app.current + r.1
    decreases fuel
  {
    if fuel == 0 then (app, 0)
    else
      var t := Animate(app);
      if t.next.None? then (t.app, 0)
      else
        var rest := Run(t.app, fuel - 1);
        (rest.0, rest.1 + 1)
  }

  /**
   * Once playing, the chain of ticks shows every remaining step once and
   * then stops at the last one: from a valid state with a trace it takes
   * exactly one tick per remaining step plus the final one that switches
   * playback off.
   */
  lemma {:induction false} PlaybackFinishes(app: App)
    requires Valid(app) && |app.steps| > 0 && app.playing
    ensures Run(app, |app.steps| - app.current) == (app.(current := |app.steps| - 1, playing := false), |app.steps| - 1 - app.current)
    decreases |app.steps| - app.current
  {
    if app.current < |app.steps| - 1 {
      var t := Animate(app);
      PlaybackFinishes(t.app);
      assert t.app.(current := |app.steps| - 1, playing := false) == app.(current := |app.steps| - 1, playing := false);
    }
  }
}

=== FILE: quick.dfy ===
/**
 * The quicksort simulator: Lomuto partitioning around the last cell of the
 * range, then recursion on each side that still holds two or more cells.
 * Elements only ever move by exchanges, so every snapshot is a permutation.
 */
module QuickSort {
  import opened Wrappers
  import opened Trace

  /** Every cell of [lo, hi] in `b` is some cell of [lo, hi] in `a` when the ranges hold the same elements. */
  lemma SameRange(a: seq<int>, b: seq<int>, lo: int, hi: int, k: int) returns (k': int)
    requires 0 <= lo <= k <= hi < |a| == |b| && multiset(b[lo..hi + 1]) == multiset(a[lo..hi + 1])
    ensures lo <= k' <= hi && b[k] == a[k']
  {
    assert b[k] == b[lo..hi + 1][k - lo];
    assert b[k] in multiset(a[lo..hi + 1]);
    var r :| 0 <= r < hi + 1 - lo && a[lo..hi + 1][r] == b[k];
    k' := lo + r;
  }

  /** Permuting a range keeps an upper bound on its cells. */
  lemma AtMostKept(a: seq<int>, b: seq<int>, lo: int, hi: int, v: int)
    requires 0 <= lo && hi < |a| == |b| && lo <= hi + 1 && multiset(b[lo..hi + 1]) == multiset(a[lo..hi + 1])
    requires forall k :: lo <= k <= hi ==> a[k] <= v
    ensures forall k :: lo <= k <= hi ==> b[k] <= v
  {
    forall k | lo <= k <= hi
      ensures b[k] <= v
    {
      var k' := SameRange(a, b, lo, hi, k);
    }
  }

  /** Permuting a range keeps a strict lower bound on its cells. */
  lemma AboveKept(a: seq<int>, b: seq<int>, lo: int, hi: int, v: int)
    requires 0 <= lo && hi < |a| == |b| && lo <= hi + 1 && multiset(b[lo..hi + 1]) == multiset(a[lo..hi + 1])
    requires forall k :: lo <= k <= hi ==> a[k] > v
    ensures forall k :: lo <= k <= hi ==> b[k] > v
  {
    forall k | lo <= k <= hi
      ensures b[k] > v
    {
      var k' := SameRange(a, b, lo, hi, k);
    }
  }

  /**
   * The Lomuto loop state at index j: [low, i] holds cells at most the pivot,
   * (i, j) cells above it, and the pivot is still at high.
   */
  predicate Lomuto(w: seq<int>, low: int, high: int, i: int, j: int) {
    && 0 <= low <= j <= high < |w| && low - 1 <= i < j
    && (forall k :: low <= k <= i ==> w[k] <= w[high])
    && (forall k :: i < k < j ==> w[k] > w[high])
  }

  /**
   * One trip of the partition loop at index j: the comparing step with the
   * pivot, and when a[j] <= pivot the growth of the left part, with an
   * exchange and its step unless the cell is already in place.
   */
  method Visit(w: seq<int>, low: int, high: int, i: int, j: int, steps: seq<Step>)
    returns (w': seq<int>, i': int, steps': seq<Step>)
    requires Lomuto(w, low, high, i, j) && j < high
    requires SwapTrace(steps, multiset(w), true)
    ensures Lomuto(w', low, high, i', j + 1) && w'[high] == w[high]
    ensures Outside(w', w, low, high - 1) && multiset(w') == multiset(w)
    ensures |steps| < |steps'| && steps'[..|steps|] == steps && SwapTrace(steps', multiset(w), true)
    ensures Last(steps').metrics.comparisons == Last(steps).metrics.comparisons + 1
    ensures i' == (if w[j] <= w[high] then i + 1 else i)
    ensures w' == (if w[j] <= w[high] && i + 1 != j then Swap(w, i + 1, j) else w)
    ensures Last(steps').metrics.swaps == Last(steps).metrics.swaps + (if w[j] <= w[high] && i + 1 != j then 1 else 0)
    ensures steps'[|steps|].highlights == Plain.(comparing := Some([j, high]), pivot := Some(high)) && steps'[|steps|].values == w
    ensures Last(steps').values == w'
  {
    var m := Last(steps).metrics;
    var compare := Step(w, Plain.(comparing := Some([j, high]), pivot := Some(high)), SwapCounts(m.comparisons + 1, m.swaps));
    PushSwap(steps, compare, multiset(w), true);
    steps' := steps + [compare];
    w', i' := w, i;
    if w[j] <= w[high] {
      i' := i + 1;
      if i' != j {
        SwapFacts(w, i', j);
        w' := Swap(w, i', j);
        var exchange := Step(w', Plain.(swapping := Some([i', j]), pivot := Some(high)), SwapCounts(m.comparisons + 1, m.swaps + 1));
        PushSwap(steps', exchange, multiset(w), true);
        PushPrefix(steps', exchange, steps);
        steps' := steps' + [exchange];
      }
    }
  }

  /** The `for (j = low; j < high; j++)` loop of the partition: one comparison per cell of [low, high-1]. */
  method Loop(a: seq<int>, low: int, high: int, steps: seq<Step>) returns (a': seq<int>, i: int, steps': seq<Step>)
    requires 0 <= low < high < |a|
    requires SwapTrace(steps, multiset(a), true)
    ensures Lomuto(a', low, high, i, high) && a'[high] == a[high]
    ensures Outside(a', a, low, high - 1) && multiset(a') == multiset(a)
    ensures |steps| <= |steps'| && steps'[..|steps|] == steps && SwapTrace(steps', multiset(a), true)
    ensures Last(steps').metrics.comparisons == Last(steps).metrics.comparisons + (high - low)
    ensures Last(steps').metrics.swaps >= Last(steps).metrics.swaps
  {
    var j := low;
    a', i, steps' := a, low - 1, steps;
    while j < high
      invariant Lomuto(a', low, high, i, j) && a'[high] == a[high]
      invariant Outside(a', a, low, high - 1) && multiset(a') == multiset(a)
      invariant |steps| <= |steps'| && steps'[..|steps|] == steps && SwapTrace(steps', multiset(a), true)
      invariant Last(steps').metrics.comparisons == Last(steps).metrics.comparisons + (j - low)
      invariant Last(steps').metrics.swaps >= Last(steps).metrics.swaps
    {
      var before := steps';
      a', i, steps' := Visit(a', low, high, i, j, steps');
      assert steps'[..|steps|] == before[..|steps|];
      j := j + 1;
    }
  }

  /** The final exchange of the pivot into position i+1 splits the range around it. */
  lemma PlacePivot(w: seq<int>, b: seq<int>, low: int, high: int, i: int)
    requires Lomuto(w, low, high, i, high) && b == Swap(w, i + 1, high)
    ensures Outside(b, w, low, high) && multiset(b) == multiset(w)
    ensures b[i + 1] == w[high]
    ensures forall k :: low <= k < i + 1 ==> b[k] <= w[high]
    ensures forall k :: i + 1 < k <= high ==> b[k] > w[high]
  {
    SwapFacts(w, i + 1, high);
  }

  /**
   * `partition(low, high)`: the pivot step, the loop, and the final exchange
   * that puts the pivot at pi. The result splits the range: cells left of pi
   * are at most the pivot and cells right of it are greater.
   */
  method Partition(a: seq<int>, low: int, high: int, steps: seq<Step>) returns (a': seq<int>, pi: int, steps': seq<Step>)
    requires 0 <= low < high < |a|
    requires SwapTrace(steps, multiset(a), true)
    ensures Outside(a', a, low, high) && multiset(a') == multiset(a)
    ensures low <= pi <= high && a'[pi] == a[high]
    ensures forall k :: low <= k < pi ==> a'[k] <= a'[pi]
    ensures forall k :: pi < k <= high ==> a'[k] > a'[pi]
    ensures |steps| < |steps'| && steps'[..|steps|] == steps && SwapTrace(steps', multiset(a), true)
    ensures Last(steps').metrics.comparisons == Last(steps).metrics.comparisons + (high - low)
    ensures Last(steps').metrics.swaps >= Last(steps).metrics.swaps + 1
  {
    var announce := Step(a, Plain.(pivot := Some(high)), Last(steps).metrics);
    PushSwap(steps, announce, multiset(a), true);
    var w, i;
    w, i, steps' := Loop(a, low, high, steps + [announce]);
    assert steps'[..|steps|] == (steps + [announce])[..|steps|];
    pi := i + 1;
    a' := Swap(w, pi, high);
    PlacePivot(w, a', low, high, i);
    var m := Last(steps').metrics;
    var placed := Step(a', Plain.(swapping := Some([pi, high])), SwapCounts(m.comparisons, m.swaps + 1));
    PushSwap(steps', placed, multiset(a), true);
    PushPrefix(steps', placed, steps);
    steps' := steps' + [placed];
  }

  /**
   * `quicksort(low, high)`: a range of two or more cells is announced,
   * partitioned, its pivot marked as sorted, and its sides sorted; a single
   * cell gets one step; an empty range none. The ghost depth records that
   * every recursive call is on a range of at least two cells.
   */
  method Sort(a: seq<int>, low: int, high: int, steps: seq<Step>, ghost depth: nat) returns (a': seq<int>, steps': seq<Step>)
    requires 0 <= low <= high + 1 <= |a|
    requires depth > 0 ==> low < high
    requires SwapTrace(steps, multiset(a), true)
    ensures Outside(a', a, low, high) && multiset(a') == multiset(a) && SortedRange(a', low, high)
    ensures multiset(a'[low..high + 1]) == multiset(a[low..high + 1])
    ensures |steps| <= |steps'| && steps'[..|steps|] == steps && SwapTrace(steps', multiset(a), true)
    ensures low > high ==> steps' == steps
    ensures low == high ==> |steps'| == |steps| + 1
    decreases high - low + 1, 2
  {
    if low < high {
      var divide := Step(a, Plain.(dividing := Some([low, high])), Last(steps).metrics);
      PushSwap(steps, divide, multiset(a), true);
      steps' := steps + [divide];
      var pi, before;
      before := steps';
      a', pi, steps' := Partition(a, low, high, steps');
      assert steps'[..|steps|] == before[..|steps|];
      var settle := Step(a', Plain.(sorted := Some([pi]), pivot := Some(pi)), Last(steps').metrics);
      PushSwap(steps', settle, multiset(a), true);
      PushPrefix(steps', settle, steps);
      steps' := steps' + [settle];
      before := steps';
      var b;
      b, steps' := Sides(a', low, pi, high, steps', depth);
      assert steps'[..|steps|] == before[..|steps|];
      a' := b;
      RangeFromWhole(a', a, low, high);
    } else if low == high {
      a' := a;
      var single := Step(a, Plain.(sorted := Some([low])), Last(steps).metrics);
      PushSwap(steps, single, multiset(a), true);
      steps' := steps + [single];
    } else {
      a', steps' := a, steps;
    }
  }

  /**
   * The two guarded recursive calls after a partition at pi: the left side
   * when pi-1 > low, the right side when pi+1 < high.
   */
  method Sides(a: seq<int>, low: int, pi: int, high: int, steps: seq<Step>, ghost depth: nat) returns (a': seq<int>, steps': seq<Step>)
    requires 0 <= low <= pi <= high < |a|
    requires forall k :: low <= k < pi ==> a[k] <= a[pi]
    requires forall k :: pi < k <= high ==> a[k] > a[pi]
    requires SwapTrace(steps, multiset(a), true)
    ensures Outside(a', a, low, high) && multiset(a') == multiset(a) && SortedRange(a', low, high)
    ensures |steps| <= |steps'| && steps'[..|steps|] == steps && SwapTrace(steps', multiset(a), true)
    decreases high - low + 1, 1
  {
    var left, before;
    left, steps' := Left(a, low, pi, high, steps, depth);
    before := steps';
    a', steps' := Right(left, low, pi, high, steps', depth);
    assert steps'[..|steps|] == before[..|steps|];
    Joined(a, left, a', low, pi, high);
  }

  /** `if (pi - 1 > low) quicksort(low, pi - 1)`: the left side stays at most the pivot. */
  method Left(a: seq<int>, low: int, pi: int, high: int, steps: seq<Step>, ghost depth: nat) returns (a': seq<int>, steps': seq<Step>)
    requires 0 <= low <= pi <= high < |a|
    requires forall k :: low <= k < pi ==> a[k] <= a[pi]
    requires SwapTrace(steps, multiset(a), true)
    ensures Outside(a', a, low, pi - 1) && multiset(a') == multiset(a)
    ensures pi - 1 > low ==> SortedRange(a', low, pi - 1)
    ensures forall k :: low <= k < pi ==> a'[k] <= a[pi]
    ensures |steps| <= |steps'| && steps'[..|steps|] == steps && SwapTrace(steps', multiset(a), true)
    decreases high - low + 1, 0
  {
    a', steps' := a, steps;
    if pi - 1 > low {
      a', steps' := Sort(a, low, pi - 1, steps, depth + 1);
      AtMostKept(a, a', low, pi - 1, a[pi]);
    }
  }

  /** `if (pi + 1 < high) quicksort(pi + 1, high)`: the right side stays above the pivot. */
  method Right(a: seq<int>, low: int, pi: int, high: int, steps: seq<Step>, ghost depth: nat) returns (a': seq<int>, steps': seq<Step>)
    requires 0 <= low <= pi <= high < |a|
    requires forall k :: pi < k <= high ==> a[k] > a[pi]
    requires SwapTrace(steps, multiset(a), true)
    ensures Outside(a', a, pi + 1, high) && multiset(a') == multiset(a)
    ensures pi + 1 < high ==> SortedRange(a', pi + 1, high)
    ensures forall k :: pi < k <= high ==> a'[k] > a[pi]
    ensures |steps| <= |steps'| && steps'[..|steps|] == steps && SwapTrace(steps', multiset(a), true)
    decreases high - low + 1, 0
  {
    a', steps' := a, steps;
    if pi + 1 < high {
      a', steps' := Sort(a, pi + 1, high, steps, depth + 1);
      AboveKept(a, a', pi + 1, high, a[pi]);
    }
  }

  /** Sorting both sides of a partition, each in place, sorts the whole range. */
  lemma Joined(a: seq<int>, left: seq<int>, b: seq<int>, low: int, pi: int, high: int)
    requires 0 <= low <= pi <= high < |a|
    requires Outside(left, a, low, pi - 1) && Outside(b, left, pi + 1, high)
    requires pi - 1 > low ==> SortedRange(left, low, pi - 1)
    requires pi + 1 < high ==> SortedRange(b, pi + 1, high)
    requires forall k :: low <= k < pi ==> left[k] <= a[pi]
    requires forall k :: pi < k <= high ==> b[k] > left[pi]
    requires left[pi] == a[pi]
    ensures Outside(b, a, low, high) && SortedRange(b, low, high)
  {
    forall p, q | low <= p < q <= high
      ensures b[p] <= b[q]
    {
      if q < pi {
        assert b[p] == left[p] && b[q] == left[q];
      } else if p < pi {
        assert b[p] == left[p];
      }
    }
  }

  /**
   * `simulateQuickSort`: the initial copy, `quicksort(0, n-1)` and the final
   * all-sorted step. A one-element array gives exactly three steps.
   */
  method Simulate(input: seq<int>) returns (steps: seq<Step>)
    ensures |steps| >= 2
    ensures steps[0] == Step(input, Plain, SwapCounts(0, 0))
    ensures Ascending(Last(steps).values) && multiset(Last(steps).values) == multiset(input)
    ensures Last(steps).highlights == Plain.(sorted := Some(Indices(|input|)))
    ensures |input| == 1 ==> |steps| == 3
    ensures Monotone(steps) && AllPerm(steps, multiset(input))
  {
    var first := Step(input, Plain, SwapCounts(0, 0));
    var a;
    a, steps := Sort(input, 0, |input| - 1, [first], 0);
    assert steps[0] == first;
    var final := Step(a, Plain.(sorted := Some(Indices(|input|))), Last(steps).metrics);
    PushSwap(steps, final, multiset(input), true);
    steps := steps + [final];
    ChainMeans(steps, multiset(input), true);
  }
}

=== FILE: selection.dfy ===
/**
 * The selection-sort simulator: for each position i, a scan of the rest of
 * the array for its minimum, one exchange when the minimum is elsewhere, and
 * a step marking the first i+1 positions as sorted.
 */
module SelectionSort {
  import opened Wrappers
  import opened Trace

  /**
   * The first `i` cells are in their final place: each of them is at most
   * every cell after it.
   */
  predicate SortedPrefix(a: seq<int>, i: int) {
    forall p, q :: 0 <= p < q < |a| && p < i ==> a[p] <= a[q]
  }

  /**
   * The inner loop for position i: j runs over i+1..n-1 comparing a[j] with
   * the minimum so far, and a new minimum gets a step of its own. The array
   * is not changed; the result is the index of the leftmost minimum of a[i..].
   */
  method Scan(a: seq<int>, i: nat, steps: seq<Step>) returns (minIdx: nat, steps': seq<Step>)
    requires i < |a| && SwapTrace(steps, multiset(a), true)
    ensures i <= minIdx < |a| && forall p :: i <= p < |a| ==> a[minIdx] <= a[p]
    ensures forall p :: i <= p < minIdx ==> a[p] > a[minIdx]
    ensures |steps| <= |steps'| && steps'[..|steps|] == steps && SwapTrace(steps', multiset(a), true)
    ensures Last(steps').metrics.comparisons == Last(steps).metrics.comparisons + (|a| - i - 1)
    ensures Last(steps').metrics.swaps == Last(steps).metrics.swaps
  {
    minIdx, steps' := i, steps;
    var j := i + 1;
    while j < |a|
      invariant i < j <= |a| && i <= minIdx < j
      invariant forall p :: i <= p < j ==> a[minIdx] <= a[p]
      invariant forall p :: i <= p < minIdx ==> a[p] > a[minIdx]
      invariant |steps| <= |steps'| && steps'[..|steps|] == steps && SwapTrace(steps', multiset(a), true)
      invariant Last(steps').metrics.comparisons == Last(steps).metrics.comparisons + (j - i - 1)
      invariant Last(steps').metrics.swaps == Last(steps).metrics.swaps
    {
      var m := Last(steps').metrics;
      var counts := SwapCounts(m.comparisons + 1, m.swaps);
      var compare := Step(a, Plain.(comparing := Some([j, minIdx]), current := Some(i)), counts);
      PushSwap(steps', compare, multiset(a), true);
      PushPrefix(steps', compare, steps);
      steps' := steps' + [compare];
      if a[j] < a[minIdx] {
        minIdx := j;
        var found := Step(a, Plain.(current := Some(i), minimum := Some(minIdx)), counts);
        PushSwap(steps', found, multiset(a), true);
        PushPrefix(steps', found, steps);
        steps' := steps' + [found];
      }
      j := j + 1;
    }
  }

  /** Exchanging position i with the minimum of a[i..] extends the sorted prefix by one. */
  lemma SelectExtends(a: seq<int>, i: nat, minIdx: nat)
    requires i <= minIdx < |a| && SortedPrefix(a, i)
    requires forall p :: i <= p < |a| ==> a[minIdx] <= a[p]
    ensures SortedPrefix(Swap(a, i, minIdx), i + 1)
  {
    SwapFacts(a, i, minIdx);
    var b := Swap(a, i, minIdx);
    forall p, q | 0 <= p < q < |b| && p < i + 1
      ensures b[p] <= b[q]
    {
      if p < i {
        assert b[p] == a[p];
        if q == minIdx { assert b[q] == a[i]; } else if q == i { assert b[q] == a[minIdx]; } else { assert b[q] == a[q]; }
      } else {
        assert b[p] == a[minIdx];
        if q == minIdx { assert b[q] == a[i]; } else { assert b[q] == a[q]; }
      }
    }
  }

  /**
   * One round of the outer loop: the step announcing position i, the scan,
   * the exchange when the minimum is elsewhere, and the step marking the
   * first i+1 positions as sorted. `minIdx` is the leftmost minimum of
   * a[i..]; the array changes only by exchanging it into position i, and one
   * exchange is counted exactly when it was elsewhere. The last round
   * (i = n-1) never exchanges.
   */
  method Round(a: seq<int>, i: nat, steps: seq<Step>) returns (a': seq<int>, minIdx: nat, steps': seq<Step>)
    requires i < |a| && SortedPrefix(a, i)
    requires SwapTrace(steps, multiset(a), true)
    ensures i <= minIdx < |a| && forall p :: i <= p < |a| ==> a[minIdx] <= a[p]
    ensures forall p :: i <= p < minIdx ==> a[p] > a[minIdx]
    ensures a' == (if minIdx != i then Swap(a, i, minIdx) else a)
    ensures |a'| == |a| && multiset(a') == multiset(a) && SortedPrefix(a', i + 1)
    ensures |steps'| > |steps| && steps'[..|steps|] == steps && SwapTrace(steps', multiset(a), true)
    ensures Last(steps').metrics.comparisons == Last(steps).metrics.comparisons + (|a| - i - 1)
    ensures Last(steps').metrics.swaps == Last(steps).metrics.swaps + (if minIdx != i then 1 else 0)
    ensures Last(steps').metrics.swaps <= Last(steps).metrics.swaps + (if i + 1 < |a| then 1 else 0)
    ensures Last(steps').values == a' && Last(steps').highlights == Plain.(sorted := Some(Indices(i + 1)))
  {
    var announce := Step(a, Plain.(current := Some(i)), Last(steps).metrics);
    PushSwap(steps, announce, multiset(a), true);
    steps' := steps + [announce];
    var scanned := steps';
    minIdx, steps' := Scan(a, i, steps');
    assert steps'[..|steps|] == scanned[..|steps|];
    SwapFacts(a, i, minIdx);
    SelectExtends(a, i, minIdx);
    a' := a;
    if minIdx != i {
      a' := Swap(a, i, minIdx);
      var m := Last(steps').metrics;
      var exchange := Step(a', Plain.(swapping := Some([i, minIdx])), SwapCounts(m.comparisons, m.swaps + 1));
      PushSwap(steps', exchange, multiset(a), true);
      PushPrefix(steps', exchange, steps);
      steps' := steps' + [exchange];
    } else {
      assert Swap(a, i, minIdx) == a;
    }
    var settled := Step(a', Plain.(sorted := Some(Indices(i + 1))), Last(steps').metrics);
    PushSwap(steps', settled, multiset(a), true);
    PushPrefix(steps', settled, steps);
    steps' := steps' + [settled];
  }

  /**
   * `simulateSelectionSort`: the initial copy, one round per position, and
   * the final all-sorted step. Exactly n(n-1)/2 comparisons whatever the
   * input order, and at most n-1 exchanges.
   */
  method Simulate(input: seq<int>) returns (steps: seq<Step>)
    ensures |steps| >= 2
    ensures steps[0] == Step(input, Plain, SwapCounts(0, 0))
    ensures Ascending(Last(steps).values) && multiset(Last(steps).values) == multiset(input)
    ensures Last(steps).highlights == Plain.(sorted := Some(Indices(|input|)))
    ensures Last(steps).metrics.SwapCounts?
    ensures Last(steps).metrics.comparisons == |input| * (|input| - 1) / 2
    ensures |input| > 0 ==> Last(steps).metrics.swaps <= |input| - 1
    ensures Monotone(steps) && AllPerm(steps, multiset(input))
  {
    var n := |input|;
    var a := input;
    var first := Step(input, Plain, SwapCounts(0, 0));
    steps := [first];
    var i := 0;
    while i < n
      invariant 0 <= i <= n
      invariant |a| == n && multiset(a) == multiset(input) && SortedPrefix(a, i)
      invariant |steps| > 0 && steps[0] == first && SwapTrace(steps, multiset(input), true)
      invariant Last(steps).metrics.comparisons + Pairs(n - i) == Pairs(n)
      invariant Last(steps).metrics.swaps <= i
      invariant 0 < i == n ==> Last(steps).metrics.swaps <= n - 1
    {
      var before := steps;
      var minIdx;
      a, minIdx, steps := Round(a, i, steps);
      assert steps[0] == steps[..|before|][0];
      i := i + 1;
    }
    var final := Step(a, Plain.(sorted := Some(Indices(n))), Last(steps).metrics);
    PushSwap(steps, final, multiset(input), true);
    steps := steps + [final];
    ChainMeans(steps, multiset(input), true);
    PairsClosedForm(n);
  }
}

=== FILE: trace.dfy ===
/** Optional values: a highlight field or a timer that may be absent. */
module Wrappers {
  datatype Option<+T> = None | Some(value: T)
}

/**
 * The immutable Step record every simulator appends to its trace, and the
 * facts shared by all five simulators: ascending order, permutations,
 * counter monotonicity and the swap primitive.
 */
module Trace {
  import opened Wrappers

  /**
   * The optional highlight fields of a step. Several may be present on the
   * same step (a quicksort comparison carries `comparing` and `pivot`).
   * Index pairs and ranges are kept as the lists the source builds.
   */
  datatype Highlights = Highlights(
    comparing: Option<seq<int>>,
    swapping: Option<seq<int>>,
    sorted: Option<seq<int>>,
    pivot: Option<int>,
    current: Option<int>,
    minimum: Option<int>,
    merging: Option<seq<int>>,
    dividing: Option<seq<int>>,
    placed: Option<int>,
    merged: Option<seq<int>>)

  /** A step with no highlight field at all. */
  const Plain: Highlights := Highlights(None, None, None, None, None, None, None, None, None, None)

  /** Running counters; which ones exist depends on the simulator. */
  datatype Metrics =
    | BubbleCounts(comparisons: nat, swaps: nat, accesses: nat)
    | SwapCounts(comparisons: nat, swaps: nat)
    | MergeCounts(comparisons: nat, merges: nat)

  /** One snapshot: a copy of the working array, its highlights and its counters. */
  datatype Step = Step(values: seq<int>, highlights: Highlights, metrics: Metrics)

  function Last(steps: seq<Step>): Step
    requires |steps| > 0
  {
    steps[|steps| - 1]
  }

  /** Every counter of `a` is at most the same counter of `b` (same record shape). */
  predicate MetricsLe(a: Metrics, b: Metrics) {
    || (a.BubbleCounts? && b.BubbleCounts? && a.comparisons <= b.comparisons && a.swaps <= b.swaps && a.accesses <= b.accesses)
    || (a.SwapCounts? && b.SwapCounts? && a.comparisons <= b.comparisons && a.swaps <= b.swaps)
    || (a.MergeCounts? && b.MergeCounts? && a.comparisons <= b.comparisons && a.merges <= b.merges)
  }

  /** Counters never decrease along the trace: every step's counters are at most every later step's. */
  predicate Monotone(steps: seq<Step>) {
    forall i, j :: 0 <= i < j < |steps| ==> MetricsLe(steps[i].metrics, steps[j].metrics)
  }

  lemma MetricsLeTransitive(a: Metrics, b: Metrics, c: Metrics)
    requires MetricsLe(a, b) && MetricsLe(b, c)
    ensures MetricsLe(a, c)
  {
  }

  /** Every snapshot holds exactly the elements of `m`. */
  predicate AllPerm(steps: seq<Step>, m: multiset<int>) {
    forall k :: 0 <= k < |steps| ==> multiset(steps[k].values) == m
  }

  /**
   * A step taken between element moves: nothing is being compared, exchanged,
   * merged or placed. Insertion and merge sort overwrite cells while they move
   * elements, so only these steps are promised to be permutations there.
   */
  predicate Checkpoint(h: Highlights) {
    h.comparing.None? && h.swapping.None? && h.merging.None? && h.placed.None?
  }

  /** Every checkpoint snapshot holds exactly the elements of `m`. */
  predicate CheckpointPerm(steps: seq<Step>, m: multiset<int>) {
    forall k :: 0 <= k < |steps| && Checkpoint(steps[k].highlights) ==> multiset(steps[k].values) == m
  }

  predicate Ascending(s: seq<int>) {
    forall i, j :: 0 <= i < j < |s| ==> s[i] <= s[j]
  }

  /** The index list [0, 1, ..., n-1] used for the final "all sorted" highlight. */
  function Indices(n: nat): (r: seq<int>)
    ensures |r| == n
  {
    if n == 0 then [] else Indices(n - 1) + [n - 1]
  }

  lemma {:induction false} IndicesAt(n: nat)
    ensures forall i :: 0 <= i < n ==> Indices(n)[i] == i
  {
    if n > 0 {
      IndicesAt(n - 1);
    }
  }

  /** The in-place exchange `[a[i], a[j]] = [a[j], a[i]]`. */
  function Swap(a: seq<int>, i: int, j: int): seq<int>
    requires 0 <= i < |a| && 0 <= j < |a|
  {
    a[i := a[j]][j := a[i]]
  }

  lemma SwapFacts(a: seq<int>, i: int, j: int)
    requires 0 <= i < |a| && 0 <= j < |a|
    ensures |Swap(a, i, j)| == |a|
    ensures multiset(Swap(a, i, j)) == multiset(a)
    ensures Swap(a, i, j)[i] == a[j] && Swap(a, i, j)[j] == a[i]
    ensures forall p :: 0 <= p < |a| && p != i && p != j ==> Swap(a, i, j)[p] == a[p]
  {
  }

  /**
   * The running form of the trace invariant, one step at a time: a non-empty
   * trace whose counters never decrease and whose snapshots hold the elements
   * of `m` -- every snapshot when `all` is set, the checkpoints otherwise.
   */
  predicate Chain(steps: seq<Step>, m: multiset<int>, all: bool)
    decreases |steps|
  {
    && |steps| > 0
    && ((all || Checkpoint(Last(steps).highlights)) ==> multiset(Last(steps).values) == m)
    && (|steps| > 1 ==>
          && Chain(steps[..|steps| - 1], m, all)
          && MetricsLe(steps[|steps| - 2].metrics, Last(steps).metrics))
  }

  /** Appending a step whose counters are at least the last step's extends the chain. */
  lemma Extend(steps: seq<Step>, s: Step, m: multiset<int>, all: bool)
    requires Chain(steps, m, all) && MetricsLe(Last(steps).metrics, s.metrics)
    requires (all || Checkpoint(s.highlights)) ==> multiset(s.values) == m
    ensures Chain(steps + [s], m, all) && Last(steps + [s]) == s
  {
    assert (steps + [s])[..|steps|] == steps;
  }

  lemma PushPrefix(steps: seq<Step>, s: Step, start: seq<Step>)
    requires |start| <= |steps| && steps[..|start|] == start
    ensures |start| <= |steps + [s]| && (steps + [s])[..|start|] == start
  {
    assert (steps + [s])[..|start|] == steps[..|start|];
  }

  /**
   * The chain gives the trace-wide statements: counters never decrease, every
   * checkpoint is a permutation, and every snapshot is one when `all` is set.
   */
  lemma {:induction false} ChainMeans(steps: seq<Step>, m: multiset<int>, all: bool)
    requires Chain(steps, m, all)
    ensures Monotone(steps)
    ensures CheckpointPerm(steps, m)
    ensures all ==> AllPerm(steps, m)
    decreases |steps|
  {
    if |steps| > 1 {
      var init := steps[..|steps| - 1];
      ChainMeans(init, m, all);
      forall i | 0 <= i < |init|
        ensures MetricsLe(steps[i].metrics, Last(steps).metrics)
      {
        assert steps[i] == init[i];
        if i < |init| - 1 {
          assert MetricsLe(init[i].metrics, init[|init| - 1].metrics);
          MetricsLeTransitive(steps[i].metrics, steps[|steps| - 2].metrics, Last(steps).metrics);
        }
      }
    }
  }

  /** A chain of comparison/swap counters, the shape kept by selection, insertion and quick sort. */
  predicate SwapTrace(steps: seq<Step>, m: multiset<int>, all: bool) {
    Chain(steps, m, all) && Last(steps).metrics.SwapCounts?
  }

  lemma PushSwap(steps: seq<Step>, s: Step, m: multiset<int>, all: bool)
    requires SwapTrace(steps, m, all) && MetricsLe(Last(steps).metrics, s.metrics)
    requires (all || Checkpoint(s.highlights)) ==> multiset(s.values) == m
    ensures SwapTrace(steps + [s], m, all) && Last(steps + [s]) == s
    ensures |steps| < |steps + [s]| && (steps + [s])[..|steps|] == steps
  {
    Extend(steps, s, m, all);
  }

  /** Two arrays that agree outside [lo, hi) and hold the same elements inside it are permutations of each other. */
  lemma RangePerm(a: seq<int>, b: seq<int>, lo: int, hi: int)
    requires 0 <= lo <= hi <= |a| == |b|
    requires forall p :: 0 <= p < |a| && !(lo <= p < hi) ==> a[p] == b[p]
    requires multiset(a[lo..hi]) == multiset(b[lo..hi])
    ensures multiset(a) == multiset(b)
  {
    assert a[..lo] == b[..lo];
    assert a[hi..] == b[hi..];
    assert a == a[..lo] + a[lo..hi] + a[hi..];
    assert b == b[..lo] + b[lo..hi] + b[hi..];
  }

  /** `b` agrees with `a` everywhere outside the inclusive range [lo, hi]. */
  predicate Outside(b: seq<int>, a: seq<int>, lo: int, hi: int) {
    |b| == |a| && forall p :: 0 <= p < |a| && (p < lo || hi < p) ==> b[p] == a[p]
  }

  /** The inclusive range [lo, hi] of `a` is ascending. */
  predicate SortedRange(a: seq<int>, lo: int, hi: int) {
    forall p, q :: lo <= p < q <= hi && 0 <= p && q < |a| ==> a[p] <= a[q]
  }

  /** A permutation that leaves everything outside [lo, hi] alone permutes [lo, hi] itself. */
  lemma RangeFromWhole(b: seq<int>, a: seq<int>, lo: int, hi: int)
    requires 0 <= lo <= hi + 1 <= |a| && Outside(b, a, lo, hi) && multiset(b) == multiset(a)
    ensures multiset(b[lo..hi + 1]) == multiset(a[lo..hi + 1])
  {
    var front, back := a[..lo], a[hi + 1..];
    assert b[..lo] == front by {
      forall k | 0 <= k < lo ensures b[..lo][k] == front[k] { assert b[k] == a[k]; }
    }
    assert b[hi + 1..] == back by {
      forall k | 0 <= k < |back| ensures b[hi + 1..][k] == back[k] { assert b[hi + 1 + k] == a[hi + 1 + k]; }
    }
    assert a == front + a[lo..hi + 1] + back;
    assert b == b[..lo] + b[lo..hi + 1] + b[hi + 1..];
    var ma, mb := multiset(a[lo..hi + 1]), multiset(b[lo..hi + 1]);
    var rest := multiset(front) + multiset(back);
    assert multiset(a) == ma + rest;
    assert multiset(b) == mb + rest;
    MultisetCancel(mb, ma, rest);
  }

  lemma MultisetCancel(x: multiset<int>, y: multiset<int>, rest: multiset<int>)
    requires x + rest == y + rest
    ensures x == y
  {
    forall e
      ensures x[e] == y[e]
    {
      assert (x + rest)[e] == (y + rest)[e];
    }
  }

  /** The number of pairs among n items: 0 + 1 + ... + (n-1). */
  function Pairs(n: nat): nat {
    if n == 0 then 0 else Pairs(n - 1) + (n - 1)
  }

  lemma {:induction false} PairsClosedForm(n: nat)
    ensures Pairs(n) == n * (n - 1) / 2
  {
    if n > 0 {
      PairsClosedForm(n - 1);
      assert n * (n - 1) == (n - 1) * (n - 2) + 2 * (n - 1);
    }
  }
}
